=== FILE: README.md ===
# SoundCloud plugin decision logic, in Dafny

This project models the decision logic of a SoundCloud plugin for a host
media downloader. The repository holds two revisions of the plugin:

- the **root revision**: `interface.py` and `soundcloud_api.py`;
- the **nested revision**: `modules/soundcloud/interface.py` and
  `modules/soundcloud/soundcloud_api.py`.

Both turn documents returned by the service's private mobile API into the
host's records. They also keep a per-kind cache of the documents they have
seen. HTTP is not modelled: every response is an input. A JSON document is a
record (`Documents.Doc`) holding the keys the plugin reads. The cache
dictionary `caches[kind][id]` becomes one map keyed by the pair (kind, id).

Modules:

- `Wrappers`: `Option` and `Result`.
- `Text`: Python's `str.split` with a one-character separator, its first and
  last pieces, ASCII `upper`, `int()` on digit strings, `str(int)` and
  `str.replace`.
- `Documents`: the documents, cache entries, errors, URN identifiers, the
  OAuth header, and the two ways the revisions update the cache.
- `Transcodings`: picking the progressive stream, the codec and the download mode.
- `Resolve`: `custom_url_parse`, parameterised by the order of kinds.
- `Search`: `search`. Its code is identical in both revisions, but only the
  root client's request can raise on the status (`RootInterface.SearchMedia`).
- `RootApi` and `NestedApi`: the status check and the response extraction of
  the two API clients.
- `RootInterface` and `NestedInterface`: the plugin interfaces of the two
  revisions. A call that changes state returns the outcome together with the
  new state. Changes made before a Python exception are kept in that state.

Two points of the program that are easy to assume otherwise:

- The root revision reads a track's year only from `published_at` and an
  album's or playlist's year only from `release_date`. The nested revision
  passes the text of `published_at` before the first '/' as the track's
  `date` tag, and its album and playlist records carry no year
  (modules/soundcloud/interface.py:98, 103-125). Neither revision re-fetches
  tracks in batches.
- Only the root client checks the status (soundcloud_api.py:13-14). The nested
  client returns the decoded body whatever the status
  (modules/soundcloud/soundcloud_api.py:11-12). So in the root revision a
  refused resolve or search request raises '<status>: <text>'; for a refused
  resolve request that message, not 'URL is invalid', reaches the host.

## Model

| member | source | states |
|---|---|---|
| Documents.IdIsLastUrnSegment | interface.py:34 | The identifier taken from a URN is its longest suffix free of ':'. The URN is either exactly that suffix or has a ':' just before it. |
| Documents.AuthHeadersCarryToken | soundcloud_api.py:12 | Requests carry exactly one header, `Authorization`. Its value is `OAuth ` followed by the access token, and the token can be read back from it. |
| Documents.IndexById | modules/soundcloud/soundcloud_api.py:23-27 | Filling a dictionary from an identifier list in order gives one key per distinct identifier, and no other key. Each key holds the entry of that identifier's last occurrence. |
| Documents.MergeKind | interface.py:123 | `update` on one kind's dictionary stores every new entry under that kind. Every other cached entry of every kind is kept, and nothing else is added. |
| Documents.ReplaceKind | modules/soundcloud/interface.py:105 | `update` on the top-level cache dictionary makes one kind hold exactly the new entries. Every entry of the other kinds is kept unchanged. |
| Transcodings.FirstProgressive | interface.py:92-93 | The chosen transcoding is the first one whose protocol is 'progressive'. Every earlier one is not progressive. The result is "none" exactly when no transcoding is progressive. |
| Transcodings.CodecOfPresetPrefix | interface.py:95 | For a preset `<prefix>_<rest>` whose prefix has no '_', the codec is the upper-cased prefix. |
| Resolve.ResolveUrl | interface.py:29-40 | Resolution fails with 'URL is invalid' exactly when no kind of the given order is in the response. Otherwise the kind chosen is present and no earlier kind is. The ID is the URN's last ':' segment. The type is album exactly for a playlist with `is_album`, and otherwise comes from the kind table. The document is cached under (kind, ID). |
| Resolve.ResolveExtensionAgrees | modules/soundcloud/interface.py:22 | When a kind of the shorter order is present, appending kinds changes nothing. The root revision, which adds file_url, therefore resolves every user, track or playlist response exactly as the nested revision does. |
| Resolve.ResolveTouchesOneEntry | interface.py:35 | Resolution adds or overwrites only the entry of the resolved entity. |
| RootInterface.CustomUrlParse | interface.py:29-40 | The resolve response goes through the client's status check first: a status other than 200, 201 or 202 raises '<status>: <text>' and changes nothing (soundcloud_api.py:13-14, 18). Otherwise kinds are tried in the order user, track, playlist, file_url. The result for each case depends on which earlier keys are absent. A playlist is an album when `is_album` holds. file_url maps to the empty type. The call fails with 'URL is invalid' exactly when none of the four is present. Failure leaves the state unchanged. |
| NestedInterface.CustomUrlParse | modules/soundcloud/interface.py:22-36 | Kinds are tried in the order user, track, playlist only. The call fails with 'URL is invalid' exactly when none of the three is present, even if `file_url` is. A playlist is an album when `is_album` holds. |
| Search.Plan | interface.py:42-53 | Artist maps to user, playlist and album map to playlist, and track maps to track. Album mode is chosen exactly for album queries. Every other query type fails with 'Query type <name> is unsupported'. The endpoint is the kind plus 's'. Playlist searches request `limit*4` items, the others `limit`. |
| Search.RunSearch | interface.py:55-70 | The loop returns the summaries of the first `limit` kept documents, or of the first document alone when `limit <= 0`. Each summary's name is the title, or the username for user searches. The loop caches exactly those documents under the searched kind, the last of each ID winning. |
| Search.HitsProperties | modules/soundcloud/interface.py:51-64 | Reported documents are an order-preserving subsequence of the collection, each passing the filter, and a prefix of all kept documents. There are at most `limit` of them for `limit >= 1` and at most one otherwise. When at most `limit` documents are kept, none is dropped. When at least `limit` are kept, exactly `limit` are reported. |
| Search.KeptMembership | interface.py:56-57 | A document is kept exactly when it is in the collection and passes the `is_album`/mode filter. |
| Search.PlaylistResultsMatchMode | modules/soundcloud/interface.py:39-57 | For playlist and album queries, every reported playlist has `is_album` true exactly when albums were asked for. |
| Search.SearchCachesResults | interface.py:56-59 | Every reported result is cached under the searched kind, and the cached document has that ID and passed the filter. |
| Search.SearchCachesNothingElse | modules/soundcloud/interface.py:52-55 | A search adds no cache key other than its results' IDs under the searched kind, and leaves entries of other kinds unchanged. |
| Search.SearchCall | modules/soundcloud/interface.py:38-66 | As one call on the caches, given the decoded collection: an unsupported query type raises 'Query type <name> is unsupported' and caches nothing. Otherwise the results are the summaries of the reported documents, at most `limit` of them (one when `limit <= 0`). Each result is cached as a document with that ID under the searched kind. No earlier entry is lost, and only documents are added. |
| RootInterface.SearchMedia | interface.py:42-70 | The query type is checked first, then the request goes through the client's status check (soundcloud_api.py:13-14, 21). An unsupported type, or else a refused response, raises and changes nothing. The call fails exactly in those two cases. An accepted response is filtered, reported and cached as in the nested revision's search. |
| RootApi.CheckStatus | soundcloud_api.py:11-15 | A response is accepted exactly when its status is 200, 201 or 202, and the decoded body is then returned. Otherwise the error is '<status>: <body>'. |
| RootApi.StatusReadsBack | soundcloud_api.py:14 | For a non-negative status, the status can be read back from the error message as the number before its first ':'. |
| RootApi.TopLevelCacheData | soundcloud_api.py:25-29 | The cache dictionary has the key 'track' plus one key per track ID. Each ID holds its last entry. 'track' holds an empty object unless a track has that ID. |
| RootApi.ExtractPlaylist | soundcloud_api.py:25-31 | The track IDs are one per collection entry, in order, each the entry URN's last ':' segment. Entries are cached at top level beside the 'track' key. The container returned is the `playlist` document. |
| RootApi.GetPlaylist | soundcloud_api.py:23-31 | A refused status raises with the status message. Otherwise the call returns the extraction of the body. |
| RootApi.ExtractLibrary | soundcloud_api.py:35-44 | Album IDs and track IDs are the last ':' segment of each `target_urn`, in collection order. Each track ID is cached with the entry's nested `track` document, the last occurrence winning, beside the key 'track'. |
| RootApi.GetUserAlbumsTracks | soundcloud_api.py:33-44 | The albums response is checked before the tracks response, and the first refused one raises. When both are accepted, the call returns the extraction. |
| NestedApi.GetPlaylist | modules/soundcloud/soundcloud_api.py:20-29 | The list has exactly one ID per collection entry, in order, so it is as long as the collection. Each ID is the URN's last ':' segment. The 'track' dictionary has a key exactly for each listed ID and holds the last entry. The container is the `playlist` document. |
| NestedApi.StatusIgnored | modules/soundcloud/soundcloud_api.py:11-12 | No status check is made: two responses with the same body give the same result, whatever their status and text. |
| NestedApi.DuplicateKeepsLast | modules/soundcloud/soundcloud_api.py:23-27 | For a track listed twice, the list holds the ID twice and the dictionary holds only the later entry. |
| RootInterface.GetTrackInfo | interface.py:85-119 | An uncached ID raises `KeyError` and changes nothing. Otherwise the ID is appended to `already_downloaded` exactly when the dedup setting is on. A successful result carries the URL and codec of the first progressive transcoding, which are also cached under file_url. The download type is temp-file exactly for AAC, and the header is the OAuth header. The error is 'Already downloaded in album' exactly when the ID was already listed. The year is the integer before the first '/' of `published_at`. A cached document with a progressive transcoding and a numeric year always yields a record. Every raise except `ValueError` leaves the caches unchanged. `ValueError` comes after exactly the file_url pair has been stored. |
| RootInterface.NonStreamableRaises | interface.py:99-108 | A cached track with no progressive transcoding makes the call raise `UnboundLocalError` for `download_type`. A successful call never carries 'Track not streamable'. |
| RootInterface.GetTrackInfoIntended | interface.py:85-119 | This is the corrected mapping. A non-streamable track gets the error 'Track not streamable', which takes precedence over 'Already downloaded in album', and has no URL or codec. The file_url cache is left unchanged. A streamable track gets the URL and codec of the first progressive transcoding, which are cached under file_url. The download type is temp-file exactly for AAC, and the header is the OAuth header. The dedup bookkeeping is the same as in the as-written mapping. A cached document with a numeric year always yields a record. Every raise except `ValueError` leaves the caches unchanged. |
| RootInterface.IntendedAgreesWhenStreamable | interface.py:92-97 | When a track has a progressive transcoding, the corrected and the as-written mapping give the same outcome and the same state. |
| RootInterface.IntendedDiffersOnlyWhenNotStreamable | interface.py:99-100 | The two mappings differ only for a cached track document with no progressive transcoding. |
| RootInterface.IntendedReportsNotStreamable | interface.py:99-100 | With a readable year, the corrected mapping returns a record carrying 'Track not streamable' for a non-streamable track. |
| RootInterface.TrackYearFromDate | interface.py:113 | A `published_at` written `<year>/...` yields that year. |
| RootInterface.GetContainerInfo | interface.py:121-145 | A refused response raises and changes nothing. Otherwise the fetched tracks are merged into the track cache: no earlier entry is lost, and each fetched ID holds its last entry. The record lists the track IDs in order. Its year is the integer before the first '-' of `release_date`; when that is not a number, `ValueError` is raised after the merge. An accepted response whose `release_date` starts with a number always yields the record. |
| RootInterface.PlaceholderAfterFetch | soundcloud_api.py:25 | After a fetch, the track cache holds an empty object under 'track'. Asking for track 'track' then raises `KeyError`, unless a fetched track has that ID. |
| RootInterface.GetArtistInfo | interface.py:147-155 | A refused response raises the client's error and changes nothing: the albums response is checked first, and the message is '<status>: <text>'. Otherwise the posted tracks are merged into the track cache. The name is the username of the cached user document. The album and track ID lists are those extracted from the two responses. When the artist was never cached, `KeyError` is raised after the merge. Two accepted responses and a cached user document always yield the record. |
| RootInterface.SearchedTrackIsCached | interface.py:59 | After a track search, looking up any reported track on the resulting state neither misses the cache nor finds a non-document there. |
| RootInterface.ResolveKeepsCacheShape | interface.py:35 | `Init` holds no `(url, codec)` pair, and resolution adds none outside the file_url kind. |
| RootInterface.TrackLookupKeepsCacheShape | interface.py:97 | Track lookup stores its `(url, codec)` pair only under file_url. On such a cache it never reaches the `TypeError` a tuple would cause. |
| RootInterface.SearchKeepsCacheShape | interface.py:59 | Search stores only documents, so no `(url, codec)` pair appears outside file_url. |
| RootInterface.ContainerFetchKeepsCacheShape | interface.py:123 | The album and playlist merges store only documents and the empty object, so no `(url, codec)` pair appears outside file_url. |
| RootInterface.ArtistFetchKeepsCacheShape | interface.py:149-152 | The artist merge stores only documents and the empty object, and the user lookup never reaches the `TypeError` a tuple would cause. |
| NestedInterface.GetTrackInfo | modules/soundcloud/interface.py:68-101 | An uncached ID raises 'Track not cached...?'. 'Track is not streamable' is raised exactly when no transcoding is progressive. Otherwise the record carries the first progressive URL and codec, always URL download, and the OAuth header. The date is `published_at` up to the first '/'. The genre is `genre` split on '/', or absent without `genre`. A cached document with a progressive transcoding always yields a record. |
| NestedInterface.GetContainerInfo | modules/soundcloud/interface.py:103-125 | Afterwards the track cache holds exactly the fetched IDs, each with its last entry. User and playlist entries are unchanged. The record lists the track IDs in collection order. |
| NestedInterface.FetchForgetsOtherTracks | modules/soundcloud/interface.py:105 | A track cached before a fetch that does not list it is no longer cached, and asking for it raises 'Track not cached...?'. |

## Findings

| source | as written | input that shows it | evidently intended | confidence | as-written member | corrected member |
|---|---|---|---|---|---|---|
| interface.py:92-108 | `download_type` is bound only when a progressive transcoding is found. With none, the record construction raises `UnboundLocalError`, so 'Track not streamable' never reaches the host. | A cached track whose `media.transcodings` has no entry with protocol 'progressive'. | Return the record with error 'Track not streamable' and no URL, so that album and artist batches continue. | high; not executed | RootInterface.NonStreamableRaises | RootInterface.GetTrackInfoIntended |

## Left out

- `get_track_tempdir` (interface.py:72-83) is left out. It downloads to a temporary file and runs ffmpeg, which is file-system and external-tool work.
- Issuing HTTP requests and decoding JSON are left out: the session, the request URLs and query parameters, and `resolve_url`/`search` in both clients. Responses are inputs instead; the root client's status check on them is modelled.
- `module_information` and the settings dictionary are left out because they are configuration. The settings appear only as the state's token and dedup flag.
- The `query` argument of `search` is left out: it is only forwarded to the request. The `tags` argument is never used.
- The host enumerations `CodecEnum` and `DownloadEnum` are left out. The codec is kept as the upper-cased preset prefix, so the `KeyError` for an unknown preset is not modelled.
- Documents that lack a key the code reads unconditionally, or hold `null` there, cannot be represented, so the resulting `KeyError`/`TypeError` is not modelled. The exception is `genre`, which is optional as in the code.
- `is_album` is a boolean. Python truthiness of other JSON values is not modelled.
- Text.ParseInt: accepts only non-empty runs of ASCII digits. Python's `int()` also accepts surrounding whitespace, a sign, underscores and non-ASCII digits.
- Text.Upper: upper-cases ASCII letters only.
- The nested revision's commented-out `get_artist_info` is not modelled.
- NestedInterface.GetContainerInfo: the nested `cache_data` is represented by its inner 'track' dictionary. After the update, the cache shares that dictionary object, and this aliasing has no observable effect here.

=== FILE: documents.dfy ===
/**
 * The vendor's JSON documents as the plugin reads them, the per-kind caches
 * both revisions of the plugin keep, and the errors a call can raise.
 */
module Documents {
  import opened Wrappers
  import Text

  /** `_embedded.user` of a track or playlist document. */
  datatype Uploader = Uploader(username: string, permalink: string)

  /** One entry of `media.transcodings`: its `url`, `format.protocol` and `preset`. */
  datatype Transcoding = Transcoding(url: string, protocol: string, preset: string)

  /**
   * A user, track or playlist document, reduced to the keys the plugin reads.
   * Every key the code reads unconditionally is a field; `genre`, which the
   * code first tests with `in`, is optional.
   */
  datatype Doc = Doc(
    urn: string,
    isAlbum: bool,
    title: string,
    username: string,
    uploader: Uploader,
    transcodings: seq<Transcoding>,
    publishedAt: string,
    releaseDate: string,
    artworkUrlTemplate: string,
    genre: Option<string>)

  /** The keys of the plugin's cache dictionary, which are also resolve-response keys. */
  datatype Kind = UserKind | TrackKind | PlaylistKind | FileUrlKind

  function KindName(k: Kind): (r: string)
  {
    match k
    case UserKind => "user"
    case TrackKind => "track"
    case PlaylistKind => "playlist"
    case FileUrlKind => "file_url"
  }

  /**
   * The host's download-type enumeration: its four members, and `Other` for
   * any value outside them (the host type is not part of this model).
   */
  datatype MediaKind = Artist | Album | Playlist | Track | Other(name: string)

  /**
   * A cached value: a raw document, the empty object `{}` the root revision's
   * playlist fetch leaves under the key `'track'`, or a `(url, codec)` pair
   * the root revision caches for a streamable track.
   */
  datatype Entry = Document(doc: Doc) | EmptyObject | FileRef(url: string, codec: string)

  /** `caches[kind][id]`, keyed by the pair (kind, id). */
  type Cache = map<(Kind, string), Entry>

  /** The exceptions a call can raise: the host's module error or a Python error. */
  datatype Error =
    | ModuleError(message: string)
    | KeyError(key: string)
    | UnboundLocalError(name: string)
    | ValueError(literal: string)
    | TypeError(message: string)

  /** Python's message for indexing a `(url, codec)` tuple with a string key. */
  const TupleIndexMessage := "tuple indices must be integers or slices, not str"

  /** `urn.split(':')[-1]`: the identifier at the end of a URN. */
  function IdOf(urn: string): (r: string)
  {
    Text.LastSegment(urn, ':')
  }

  /** The identifier is what follows the last ':' of the URN, and holds no ':'. */
  lemma IdIsLastUrnSegment(urn: string)
    ensures var id := IdOf(urn);
      && |id| <= |urn|
      && urn[|urn| - |id|..] == id
      && ':' !in id
      && (|id| == |urn| || urn[|urn| - |id| - 1] == ':')
  {
    Text.LastSegmentIsLongestSuffix(urn, ':');
  }

  /** The identifiers of a sequence of documents, in order. */
  function DocIds(docs: seq<Doc>): (ids: seq<string>)
    ensures |ids| == |docs|
  {
    seq(|docs|, i requires 0 <= i < |docs| => IdOf(docs[i].urn))
  }

  /** The documents of a sequence as cache entries, in order. */
  function AsEntries(docs: seq<Doc>): (es: seq<Entry>)
    ensures |es| == |docs|
  {
    seq(|docs|, i requires 0 <= i < |docs| => Document(docs[i]))
  }

  /** `{"Authorization": "OAuth " + token}`, the header every request carries. */
  function AuthHeaders(token: string): (r: map<string, string>)
  {
    map["Authorization" := "OAuth " + token]
  }

  /** The header is the single `Authorization` entry, from which the token reads back. */
  lemma AuthHeadersCarryToken(token: string)
    ensures AuthHeaders(token).Keys == {"Authorization"}
    ensures var v := AuthHeaders(token)["Authorization"];
      |v| == |token| + 6 && v[..6] == "OAuth " && v[6..] == token
  {
  }

  /** `artwork_url_template.replace('{size}', 'original')`. */
  function CoverUrl(template: string): (r: string)
  {
    Text.ReplaceAll(template, "{size}", "original")
  }

  /** `i` is the last position at which `ids[i]` occurs. */
  predicate LastOccurrence(ids: seq<string>, i: int)
    requires 0 <= i < |ids|
  {
    forall j :: i < j < |ids| ==> ids[j] != ids[i]
  }

  /**
   * The dictionary `{ids[i]: vals[i]}` filled in order: one key per distinct
   * identifier, holding the value of that identifier's last occurrence.
   */
  function IndexById<T>(ids: seq<string>, vals: seq<T>): (m: map<string, T>)
    requires |ids| == |vals|
    ensures forall id :: id in m <==> id in ids
    ensures forall i :: 0 <= i < |ids| && LastOccurrence(ids, i) ==> m[ids[i]] == vals[i]
    decreases |ids|
  {
    if |ids| == 0 then map[]
    else
      var n := |ids| - 1;
      var prior := IndexById(ids[..n], vals[..n]);
      assert ids == ids[..n] + [ids[n]];
      prior[ids[n] := vals[n]]
  }

  /** Every identifier has a last occurrence, at or after any given one. */
  lemma {:induction false} LastOccurrenceExists(ids: seq<string>, i: int) returns (j: int)
    requires 0 <= i < |ids|
    ensures i <= j < |ids| && ids[j] == ids[i] && LastOccurrence(ids, j)
    decreases |ids| - i
  {
    if LastOccurrence(ids, i) {
      j := i;
    } else {
      var k :| i < k < |ids| && ids[k] == ids[i];
      j := LastOccurrenceExists(ids, k);
    }
  }

  /**
   * `caches[k].update(m)`: the entries of `m` are stored under kind `k`; every
   * other cached entry, of any kind, is kept.
   */
  function MergeKind(c: Cache, k: Kind, m: map<string, Entry>): (r: Cache)
    ensures r.Keys == c.Keys + set id | id in m :: (k, id)
    ensures forall id :: id in m ==> r[(k, id)] == m[id]
    ensures forall key :: key in c && !(key.0 == k && key.1 in m) ==> r[key] == c[key]
  {
    map key | key in c.Keys + (set id | id in m :: (k, id)) ::
      if key.0 == k && key.1 in m then m[key.1] else c[key]
  }

  /**
   * `caches.update({k: m})`: the whole partition of kind `k` becomes `m`;
   * the partitions of the other kinds are kept.
   */
  function ReplaceKind(c: Cache, k: Kind, m: map<string, Entry>): (r: Cache)
    ensures forall id :: (k, id) in r <==> id in m
    ensures forall id :: id in m ==> r[(k, id)] == m[id]
    ensures forall key: (Kind, string) :: key.0 != k ==> (key in r <==> key in c)
    ensures forall key: (Kind, string) :: key.0 != k && key in c ==> r[key] == c[key]
  {
    var kept := set key | key in c && key.0 != k;
    var added := set id | id in m :: (k, id);
    map key | key in kept + added :: if key.0 == k then m[key.1] else c[key]
  }

  /**
   * The shape every operation of both revisions keeps: a `(url, codec)` pair
   * is only ever cached under the file_url kind.
   */
  predicate FileRefsUnderFileUrl(c: Cache)
  {
    forall key :: key in c && c[key].FileRef? ==> key.0 == FileUrlKind
  }

  /** An HTTP response: its status code, its body text and its decoded JSON body. */
  datatype Response<T> = Response(status: int, text: string, body: T)

  /** The `playlists/.../info` document: `playlist` and `tracks.collection`. */
  datatype PlaylistPage = PlaylistPage(playlist: Doc, tracks: seq<Doc>)

  /** An entry of a user's posted albums: its `target_urn`. */
  datatype AlbumPost = AlbumPost(targetUrn: string)

  /** An entry of a user's posted tracks: its `target_urn` and nested `track` document. */
  datatype TrackPost = TrackPost(targetUrn: string, track: Doc)

  /** What `get_playlist` returns: the playlist document, its track identifiers and the cache data. */
  datatype PlaylistFetch = PlaylistFetch(playlist: Doc, tracks: seq<string>, cacheData: map<string, Entry>)
}

=== FILE: nested_api.dfy ===
/**
 * The API client of the revision under `modules/soundcloud/`: `_get` returns
 * the decoded body whatever the status, and `get_playlist` nests its cache
 * data under the key `'track'`.
 */
module NestedApi {
  import opened Documents

  /** `_get` after the request: the decoded body, with no status check. */
  function Get<T>(resp: Response<T>): (r: T)
  {
    resp.body
  }

  /**
   * `get_playlist`: one identifier per collection entry, in order, so the
   * list is as long as the collection; the `'track'` dictionary maps each
   * distinct identifier to its last entry; the container is the response's
   * `playlist` document. `cacheData` is the dictionary under `'track'`.
   */
  function GetPlaylist(resp: Response<PlaylistPage>): (r: PlaylistFetch)
    ensures r.playlist == resp.body.playlist
    ensures |r.tracks| == |resp.body.tracks|
    ensures forall i :: 0 <= i < |r.tracks| ==> r.tracks[i] == IdOf(resp.body.tracks[i].urn)
    ensures forall id :: id in r.cacheData <==> id in r.tracks
    ensures forall i :: 0 <= i < |r.tracks| && LastOccurrence(r.tracks, i) ==>
      r.cacheData[r.tracks[i]] == Document(resp.body.tracks[i])
  {
    var page := Get(resp);
    var ids := DocIds(page.tracks);
    PlaylistFetch(page.playlist, ids, IndexById(ids, AsEntries(page.tracks)))
  }

  /** The status and text of the response play no part: an error page is read as data. */
  lemma StatusIgnored(a: Response<PlaylistPage>, b: Response<PlaylistPage>)
    requires a.body == b.body
    ensures GetPlaylist(a) == GetPlaylist(b)
  {
  }

  /**
   * The same track listed twice: the list keeps both occurrences, the
   * dictionary only the later entry.
   */
  lemma DuplicateKeepsLast(resp: Response<PlaylistPage>, first: Doc, second: Doc)
    requires resp.body.tracks == [first, second]
    requires first.urn == second.urn
    ensures GetPlaylist(resp).tracks == [IdOf(first.urn), IdOf(first.urn)]
    ensures GetPlaylist(resp).cacheData == map[IdOf(first.urn) := Document(second)]
  {
    var r := GetPlaylist(resp);
    var id := IdOf(first.urn);
    assert r.tracks == [id, id];
    assert LastOccurrence(r.tracks, 1);
    assert r.cacheData.Keys == {id};
  }
}

=== FILE: nested_interface.dfy ===
/**
 * The plugin interface of the revision under `modules/soundcloud/`: URL
 * resolution over three kinds, track mapping from the cache only, and album
 * and playlist fetches that replace the whole track cache.
 */
module NestedInterface {
  import opened Wrappers
  import opened Documents
  import Text
  import Transcodings
  import Resolve
  import NestedApi

  /** The interface object: its caches and the access token. */
  datatype State = State(caches: Cache, accessToken: string)

  /** The order of `self.types`, in which resolution looks for a kind. */
  const KindOrder: seq<Kind> := [UserKind, TrackKind, PlaylistKind]

  /**
   * `custom_url_parse`: the first of user, track and playlist present in the
   * resolve response wins, a playlist marked `is_album` being reported as an
   * album; a `file_url` key is never looked at. With none of the three the
   * call fails with 'URL is invalid' and nothing changes.
   */
  function CustomUrlParse(st: State, response: map<string, Doc>): (r: (Result<(MediaKind, string), Error>, State))
    ensures r.1.accessToken == st.accessToken
    ensures r.0.Failure? <==> "user" !in response && "track" !in response && "playlist" !in response
    ensures r.0.Failure? ==> r.0.error == ModuleError("URL is invalid") && r.1 == st
    ensures "user" in response ==>
      var d := response["user"];
      r.0 == Success((Artist, IdOf(d.urn))) && r.1.caches == st.caches[(UserKind, IdOf(d.urn)) := Document(d)]
    ensures "user" !in response && "track" in response ==>
      var d := response["track"];
      r.0 == Success((Track, IdOf(d.urn))) && r.1.caches == st.caches[(TrackKind, IdOf(d.urn)) := Document(d)]
    ensures "user" !in response && "track" !in response && "playlist" in response ==>
      var d := response["playlist"];
      && r.0 == Success((if d.isAlbum then Album else Playlist, IdOf(d.urn)))
      && r.1.caches == st.caches[(PlaylistKind, IdOf(d.urn)) := Document(d)]
  {
    match Resolve.ResolveUrl(KindOrder, response, st.caches)
    case Failure(e) => (Failure(e), st)
    case Success(res) =>
      match res.media
      case Some(m) => (Success((m, res.id)), st.(caches := res.caches))
      case None => assert false; (Failure(ModuleError("URL is invalid")), st)
  }

  /** The host's tag record as this revision fills it. */
  datatype Tags = Tags(title: string, album: Option<string>, artist: string, date: string, genre: Option<seq<string>>)

  /** The host's track record as this revision fills it. */
  datatype TrackInfo = TrackInfo(
    trackName: string,
    albumId: string,
    albumName: string,
    artistName: string,
    artistId: string,
    downloadType: Transcodings.DownloadMode,
    fileUrl: string,
    fileUrlHeaders: map<string, string>,
    codec: string,
    sampleRate: int,
    coverUrl: string,
    tags: Tags)

  const NotCached := "Track not cached...?"
  const NotStreamable := "Track is not streamable"

  /**
   * `get_track_info`: a track missing from the track cache raises 'Track not
   * cached...?' without any fetch; a track without a progressive transcoding
   * raises 'Track is not streamable'; otherwise the first progressive
   * transcoding supplies the URL and codec, always downloaded by URL with the
   * OAuth header, the date is `published_at` up to its first '/', and the
   * genre is `genre` split on '/', absent when the document has none.
   */
  function GetTrackInfo(st: State, trackId: string): (r: Result<TrackInfo, Error>)
    ensures (TrackKind, trackId) !in st.caches ==> r == Failure(ModuleError(NotCached))
    ensures (TrackKind, trackId) in st.caches && st.caches[(TrackKind, trackId)].Document? ==>
      var ts := st.caches[(TrackKind, trackId)].doc.transcodings;
      (r == Failure(ModuleError(NotStreamable)) <==> forall i :: 0 <= i < |ts| ==> ts[i].protocol != Transcodings.Progressive)
    ensures r.Success? ==>
      && (TrackKind, trackId) in st.caches && st.caches[(TrackKind, trackId)].Document?
      && var d := st.caches[(TrackKind, trackId)].doc;
      var ts := d.transcodings;
      var j := Transcodings.FirstProgressive(ts);
      && j < |ts|
      && r.value.fileUrl == ts[j].url
      && r.value.codec == Transcodings.CodecOf(ts[j].preset)
      && r.value.downloadType == Transcodings.Url
      && r.value.fileUrlHeaders == AuthHeaders(st.accessToken)
      && r.value.tags.date == Text.FirstSegment(d.publishedAt, '/')
      && (r.value.tags.genre.Some? <==> d.genre.Some?)
      && (d.genre.Some? ==> r.value.tags.genre.value == Text.Split(d.genre.value, '/'))
    ensures (TrackKind, trackId) in st.caches && st.caches[(TrackKind, trackId)].Document? ==>
      var ts := st.caches[(TrackKind, trackId)].doc.transcodings;
      Transcodings.FirstProgressive(ts) < |ts| ==> r.Success?
  {
    if (TrackKind, trackId) !in st.caches then Failure(ModuleError(NotCached))
    else match st.caches[(TrackKind, trackId)]
      case EmptyObject => Failure(KeyError("media"))
      // This revision never caches a `(url, codec)` pair, so no reachable cache takes this branch.
      case FileRef(_, _) => Failure(TypeError(TupleIndexMessage))
      case Document(d) =>
        var ts := d.transcodings;
        var j := Transcodings.FirstProgressive(ts);
        Transcodings.NoProgressiveIff(ts);
        if j == |ts| then Failure(ModuleError(NotStreamable))
        else
          var u := d.uploader.username;
          Success(TrackInfo(
            d.title, "", "", u, d.uploader.permalink,
            Transcodings.Url, ts[j].url, AuthHeaders(st.accessToken),
            Transcodings.CodecOf(ts[j].preset), 48, CoverUrl(d.artworkUrlTemplate),
            Tags(d.title, None, u, Text.FirstSegment(d.publishedAt, '/'),
                 if d.genre.Some? then Some(Text.Split(d.genre.value, '/')) else None)))
  }

  /** The host's album record and playlist record, which carry the same fields here. */
  datatype ContainerInfo = ContainerInfo(name: string, owner: string, ownerId: string, coverUrl: string, tracks: seq<string>)

  /**
   * `get_album_info` and `get_playlist_info`: `caches.update(cache_data)`
   * swaps in the freshly fetched track dictionary, so the track cache holds
   * exactly the fetched tracks (the last entry of each identifier) and every
   * previously cached track is gone, while the user and playlist caches are
   * unchanged. The record lists the track identifiers in collection order.
   */
  function GetContainerInfo(st: State, resp: Response<PlaylistPage>): (r: (ContainerInfo, State))
    ensures r.1.accessToken == st.accessToken
    ensures var ids := DocIds(resp.body.tracks);
      && (forall id :: (TrackKind, id) in r.1.caches <==> id in ids)
      && (forall i :: 0 <= i < |ids| && LastOccurrence(ids, i) ==>
            r.1.caches[(TrackKind, ids[i])] == Document(resp.body.tracks[i]))
    ensures forall key: (Kind, string) :: key.0 != TrackKind ==> (key in r.1.caches <==> key in st.caches)
    ensures forall key: (Kind, string) :: key.0 != TrackKind && key in st.caches ==> r.1.caches[key] == st.caches[key]
    ensures r.0.tracks == DocIds(resp.body.tracks)
    ensures r.0.name == resp.body.playlist.title && r.0.owner == resp.body.playlist.uploader.username
  {
    var f := NestedApi.GetPlaylist(resp);
    var p := f.playlist;
    (ContainerInfo(p.title, p.uploader.username, p.uploader.permalink, CoverUrl(p.artworkUrlTemplate), f.tracks),
     st.(caches := ReplaceKind(st.caches, TrackKind, f.cacheData)))
  }

  /**
   * A track cached before an album or playlist fetch whose collection does
   * not contain it is no longer cached, and asking for it afterwards raises
   * 'Track not cached...?'.
   */
  lemma FetchForgetsOtherTracks(st: State, resp: Response<PlaylistPage>, trackId: string)
    requires (TrackKind, trackId) in st.caches
    requires trackId !in DocIds(resp.body.tracks)
    ensures (TrackKind, trackId) !in GetContainerInfo(st, resp).1.caches
    ensures GetTrackInfo(GetContainerInfo(st, resp).1, trackId) == Failure(ModuleError(NotCached))
  {
  }
}

=== FILE: resolve.dfy ===
/**
 * `custom_url_parse`, shared by both revisions: the resolve response is
 * searched for the first entity kind of a fixed order, and that entity is
 * cached under its identifier.
 */
module Resolve {
  import opened Wrappers
  import opened Documents

  /** `self.types[k]`; the root revision maps `file_url` to `''`, written `None` here. */
  function MediaOf(k: Kind): (r: Option<MediaKind>)
  {
    match k
    case UserKind => Some(Artist)
    case TrackKind => Some(Track)
    case PlaylistKind => Some(Playlist)
    case FileUrlKind => None
  }

  /** The first position of `order` whose kind is a key of the response, or `|order|`. */
  function FirstPresent(order: seq<Kind>, response: map<string, Doc>): (j: nat)
    ensures j <= |order|
    ensures forall i :: 0 <= i < j ==> KindName(order[i]) !in response
    ensures j < |order| ==> KindName(order[j]) in response
    decreases |order|
  {
    if |order| == 0 then 0
    else if KindName(order[0]) in response then 0
    else 1 + FirstPresent(order[1..], response)
  }

  /** What `custom_url_parse` returns, together with the kind it matched and the updated caches. */
  datatype Resolved = Resolved(kind: Kind, media: Option<MediaKind>, id: string, caches: Cache)

  /**
   * Resolution against the kinds of `order`: it fails with 'URL is invalid'
   * exactly when none of them is in the response; otherwise it picks the
   * first one present, labels a playlist marked `is_album` as an album,
   * takes the identifier from the URN and caches the document under it.
   */
  function ResolveUrl(order: seq<Kind>, response: map<string, Doc>, caches: Cache): (r: Result<Resolved, Error>)
    ensures r.Failure? <==> forall i :: 0 <= i < |order| ==> KindName(order[i]) !in response
    ensures r.Failure? ==> r.error == ModuleError("URL is invalid")
    ensures r.Success? ==>
      exists j :: 0 <= j < |order| && order[j] == r.value.kind
        && KindName(order[j]) in response
        && forall i :: 0 <= i < j ==> KindName(order[i]) !in response
    ensures r.Success? ==>
      var d := response[KindName(r.value.kind)];
      && r.value.id == IdOf(d.urn)
      && (r.value.media == Some(Album) <==> r.value.kind == PlaylistKind && d.isAlbum)
      && (r.value.media != Some(Album) ==> r.value.media == MediaOf(r.value.kind))
      && r.value.caches == caches[(r.value.kind, r.value.id) := Document(d)]
  {
    var j := FirstPresent(order, response);
    if j == |order| then Failure(ModuleError("URL is invalid"))
    else
      var k := order[j];
      var d := response[KindName(k)];
      var media := if k == PlaylistKind && d.isAlbum then Some(Album) else MediaOf(k);
      var id := IdOf(d.urn);
      Success(Resolved(k, media, id, caches[(k, id) := Document(d)]))
  }

  /** Resolution only touches the cache entry of the entity it returns. */
  lemma ResolveTouchesOneEntry(order: seq<Kind>, response: map<string, Doc>, caches: Cache, key: (Kind, string))
    ensures var r := ResolveUrl(order, response, caches);
      r.Success? && key != (r.value.kind, r.value.id) ==>
        && (key in r.value.caches <==> key in caches)
        && (key in caches ==> r.value.caches[key] == caches[key])
  {
  }

  lemma {:induction false} FirstPresentOfExtension(order: seq<Kind>, extra: seq<Kind>, response: map<string, Doc>)
    requires exists i :: 0 <= i < |order| && KindName(order[i]) in response
    ensures FirstPresent(order + extra, response) == FirstPresent(order, response)
    decreases |order|
  {
    if KindName(order[0]) !in response {
      var i :| 0 <= i < |order| && KindName(order[i]) in response;
      assert i > 0 && KindName(order[1..][i - 1]) in response;
      assert (order + extra)[1..] == order[1..] + extra;
      FirstPresentOfExtension(order[1..], extra, response);
    }
  }

  /**
   * Kinds appended to the order only matter when none of the original kinds
   * is present: the root revision's extra `file_url` kind changes nothing for
   * a response holding a user, a track or a playlist.
   */
  lemma ResolveExtensionAgrees(order: seq<Kind>, extra: seq<Kind>, response: map<string, Doc>, caches: Cache)
    requires exists i :: 0 <= i < |order| && KindName(order[i]) in response
    ensures ResolveUrl(order + extra, response, caches) == ResolveUrl(order, response, caches)
  {
    FirstPresentOfExtension(order, extra, response);
    var j := FirstPresent(order, response);
    assert (order + extra)[j] == order[j];
  }
}

=== FILE: root_api.dfy ===
/**
 * The API client of the root revision (`soundcloud_api.py`): a status check on
 * every response, and the extraction of identifier lists and cache data
 * from the playlist and user-library responses.
 */
module RootApi {
  import opened Wrappers
  import opened Documents
  import Text

  /** The statuses `_get` accepts. */
  const Accepted: set<int> := {200, 201, 202}

  /** `f'{status}: {text}'`, the message of a refused response. */
  function StatusMessage(status: int, text: string): (r: string)
  {
    Text.IntText(status) + ": " + text
  }

  /**
   * `_get` after the request: the decoded body when the status is 200, 201
   * or 202, otherwise the module error `'<status>: <body>'`.
   */
  function CheckStatus<T>(resp: Response<T>): (r: Result<T, Error>)
    ensures r.Success? <==> resp.status in Accepted
    ensures r.Success? ==> r.value == resp.body
    ensures r.Failure? ==> r.error == ModuleError(StatusMessage(resp.status, resp.text))
  {
    if resp.status in Accepted then Success(resp.body)
    else Failure(ModuleError(StatusMessage(resp.status, resp.text)))
  }

  /** The status code reads back from the start of a refusal message. */
  lemma StatusReadsBack(status: nat, text: string)
    ensures Text.ParseInt(Text.FirstSegment(StatusMessage(status, text), ':')) == Some(status)
  {
    var digits := Text.Decimal(status);
    assert ':' !in digits by {
      forall i | 0 <= i < |digits| ensures digits[i] != ':' {
        assert Text.IsDigit(digits[i]);
      }
    }
    assert StatusMessage(status, text) == digits + [':'] + (" " + text);
    Text.FirstSegmentOfConcat(digits, ':', " " + text);
    Text.ParseDecimal(status);
  }

  /**
   * The cache dictionary `{'track': {}}` into which each entry is then stored
   * at top level under its identifier: the key `'track'` and one key per
   * identifier, each holding its last entry.
   */
  function TopLevelCacheData(ids: seq<string>, entries: seq<Entry>): (m: map<string, Entry>)
    requires |ids| == |entries|
    ensures forall id :: id in m <==> id == "track" || id in ids
    ensures forall i :: 0 <= i < |ids| && LastOccurrence(ids, i) ==> m[ids[i]] == entries[i]
    ensures "track" !in ids ==> m["track"] == EmptyObject
  {
    map["track" := EmptyObject] + IndexById(ids, entries)
  }

  /**
   * The extraction of `get_playlist` after the status check: one identifier
   * per collection entry, in order, and a cache dictionary holding each
   * entry at top level under its identifier, beside the key `'track'`
   * initialised to an empty object.
   */
  function ExtractPlaylist(page: PlaylistPage): (f: PlaylistFetch)
    ensures f.playlist == page.playlist
    ensures |f.tracks| == |page.tracks|
    ensures forall i :: 0 <= i < |f.tracks| ==> f.tracks[i] == IdOf(page.tracks[i].urn)
    ensures forall id :: id in f.cacheData <==> id == "track" || id in f.tracks
    ensures forall i :: 0 <= i < |f.tracks| && LastOccurrence(f.tracks, i) ==> f.cacheData[f.tracks[i]] == Document(page.tracks[i])
    ensures "track" !in f.tracks ==> f.cacheData["track"] == EmptyObject
  {
    var ids := DocIds(page.tracks);
    PlaylistFetch(page.playlist, ids, TopLevelCacheData(ids, AsEntries(page.tracks)))
  }

  /** `get_playlist`: the status check, then the extraction. */
  function GetPlaylist(resp: Response<PlaylistPage>): (r: Result<PlaylistFetch, Error>)
    ensures r.Failure? <==> resp.status !in Accepted
    ensures r.Failure? ==> r.error == ModuleError(StatusMessage(resp.status, resp.text))
    ensures r.Success? ==> r.value == ExtractPlaylist(resp.body)
  {
    match CheckStatus(resp)
    case Failure(e) => Failure(e)
    case Success(page) => Success(ExtractPlaylist(page))
  }

  /** What `get_user_albums_tracks` returns. */
  datatype LibraryFetch = LibraryFetch(albums: seq<string>, tracks: seq<string>, cacheData: map<string, Entry>)

  /**
   * The extraction of `get_user_albums_tracks` after both status checks:
   * album and track identifiers come from the `target_urn` of each entry, in
   * order; the cache dictionary maps each track identifier to the entry's
   * nested track document, beside the key `'track'`.
   */
  function ExtractLibrary(albums: seq<AlbumPost>, posts: seq<TrackPost>): (f: LibraryFetch)
    ensures |f.albums| == |albums|
    ensures forall i :: 0 <= i < |albums| ==> f.albums[i] == IdOf(albums[i].targetUrn)
    ensures |f.tracks| == |posts|
    ensures forall i :: 0 <= i < |posts| ==> f.tracks[i] == IdOf(posts[i].targetUrn)
    ensures forall id :: id in f.cacheData <==> id == "track" || id in f.tracks
    ensures forall i :: 0 <= i < |posts| && LastOccurrence(f.tracks, i) ==> f.cacheData[f.tracks[i]] == Document(posts[i].track)
    ensures "track" !in f.tracks ==> f.cacheData["track"] == EmptyObject
  {
    var albumIds := seq(|albums|, i requires 0 <= i < |albums| => IdOf(albums[i].targetUrn));
    var ids := seq(|posts|, i requires 0 <= i < |posts| => IdOf(posts[i].targetUrn));
    var docs := seq(|posts|, i requires 0 <= i < |posts| => Document(posts[i].track));
    LibraryFetch(albumIds, ids, TopLevelCacheData(ids, docs))
  }

  /**
   * `get_user_albums_tracks`: the posted-albums response is checked first,
   * then the posted-tracks response, then the identifiers are extracted.
   */
  function GetUserAlbumsTracks(albumsResp: Response<seq<AlbumPost>>, tracksResp: Response<seq<TrackPost>>)
    : (r: Result<LibraryFetch, Error>)
    ensures r.Failure? <==> albumsResp.status !in Accepted || tracksResp.status !in Accepted
    ensures albumsResp.status !in Accepted ==> r == Failure(ModuleError(StatusMessage(albumsResp.status, albumsResp.text)))
    ensures albumsResp.status in Accepted && tracksResp.status !in Accepted ==>
      r == Failure(ModuleError(StatusMessage(tracksResp.status, tracksResp.text)))
    ensures r.Success? ==> r.value == ExtractLibrary(albumsResp.body, tracksResp.body)
  {
    match CheckStatus(albumsResp)
    case Failure(e) => Failure(e)
    case Success(albums) =>
      match CheckStatus(tracksResp)
      case Failure(e) => Failure(e)
      case Success(posts) => Success(ExtractLibrary(albums, posts))
  }
}

=== FILE: root_interface.dfy ===
/**
 * The plugin interface of the root revision (`interface.py`): URL resolution
 * over four kinds, track mapping with the "already downloaded" list, and the
 * album, playlist and artist fetches that merge track documents into the
 * track cache.
 */
module RootInterface {
  import opened Wrappers
  import opened Documents
  import Text
  import Transcodings
  import Resolve
  import RootApi
  import Search

  /**
   * The interface object: its caches, the identifiers of tracks already
   * handed out, the `artist_download_ignore_tracks_in_albums` setting and
   * the access token.
   */
  datatype State = State(caches: Cache, alreadyDownloaded: seq<string>, dontRedownload: bool, accessToken: string)

  /** `__init__`: every cache empty and nothing downloaded yet. */
  function Init(accessToken: string, dontRedownload: bool): (r: State)
  {
    State(map[], [], dontRedownload, accessToken)
  }

  /** The order of `self.types`, in which resolution looks for a kind. */
  const KindOrder: seq<Kind> := [UserKind, TrackKind, PlaylistKind, FileUrlKind]

  /**
   * `custom_url_parse`: the resolve request goes through the client's status
   * check, so a refused response raises '<status>: <text>' before any kind
   * is tried. Otherwise the first of user, track, playlist and file_url
   * present in the decoded response wins; a playlist marked `is_album` is
   * reported as an album and `file_url` as the empty type (`None`); the
   * document is cached under its kind and identifier. With none present the
   * call fails with 'URL is invalid'. A failure changes nothing.
   */
  function CustomUrlParse(st: State, resp: Response<map<string, Doc>>): (r: (Result<(Option<MediaKind>, string), Error>, State))
    ensures r.1 == st.(caches := r.1.caches)
    ensures resp.status !in RootApi.Accepted ==>
      r == (Failure(ModuleError(RootApi.StatusMessage(resp.status, resp.text))), st)
    ensures r.0.Failure? <==>
      resp.status !in RootApi.Accepted
      || ("user" !in resp.body && "track" !in resp.body && "playlist" !in resp.body && "file_url" !in resp.body)
    ensures r.0.Failure? ==> r.1 == st
    ensures resp.status in RootApi.Accepted && r.0.Failure? ==> r.0.error == ModuleError("URL is invalid")
    ensures resp.status in RootApi.Accepted && "user" in resp.body ==>
      var d := resp.body["user"];
      r.0 == Success((Some(Artist), IdOf(d.urn))) && r.1.caches == st.caches[(UserKind, IdOf(d.urn)) := Document(d)]
    ensures resp.status in RootApi.Accepted && "user" !in resp.body && "track" in resp.body ==>
      var d := resp.body["track"];
      r.0 == Success((Some(Track), IdOf(d.urn))) && r.1.caches == st.caches[(TrackKind, IdOf(d.urn)) := Document(d)]
    ensures resp.status in RootApi.Accepted && "user" !in resp.body && "track" !in resp.body && "playlist" in resp.body ==>
      var d := resp.body["playlist"];
      && r.0 == Success((Some(if d.isAlbum then Album else Playlist), IdOf(d.urn)))
      && r.1.caches == st.caches[(PlaylistKind, IdOf(d.urn)) := Document(d)]
    ensures resp.status in RootApi.Accepted && "user" !in resp.body && "track" !in resp.body && "playlist" !in resp.body
            && "file_url" in resp.body ==>
      var d := resp.body["file_url"];
      r.0 == Success((None, IdOf(d.urn))) && r.1.caches == st.caches[(FileUrlKind, IdOf(d.urn)) := Document(d)]
  {
    match RootApi.CheckStatus(resp)
    case Failure(e) => (Failure(e), st)
    case Success(response) =>
      match Resolve.ResolveUrl(KindOrder, response, st.caches)
      case Failure(e) => (Failure(e), st)
      case Success(res) => (Success((res.media, res.id)), st.(caches := res.caches))
  }

  /** The host's track record as this revision fills it. */
  datatype TrackInfo = TrackInfo(
    name: string,
    album: string,
    albumId: string,
    artists: seq<string>,
    artistId: string,
    downloadType: Transcodings.DownloadMode,
    fileUrl: Option<string>,
    fileUrlHeaders: map<string, string>,
    codec: Option<string>,
    sampleRate: int,
    releaseYear: int,
    coverUrl: string,
    genres: Option<seq<seq<string>>>,
    error: Option<string>)

  const AlreadyDownloaded := "Already downloaded in album"
  const NotStreamable := "Track not streamable"

  /** The bookkeeping of lines 88-89: the identifier is recorded when the setting is on. */
  function Record(st: State, trackId: string): (r: State)
  {
    if st.dontRedownload then st.(alreadyDownloaded := st.alreadyDownloaded + [trackId]) else st
  }

  /** The text before the first '/' of `published_at`, which `int()` reads as the year. */
  function YearText(d: Doc): (r: string)
  {
    Text.FirstSegment(d.publishedAt, '/')
  }

  /** The record built at lines 102-119 once the year has been read. */
  function TrackRecord(st: State, d: Doc, mode: Transcodings.DownloadMode, url: Option<string>,
                       codec: Option<string>, year: nat, error: Option<string>): (r: TrackInfo)
  {
    TrackInfo(
      d.title, "", "", [d.uploader.username], d.uploader.permalink,
      mode, url, AuthHeaders(st.accessToken), codec, 48, year,
      CoverUrl(d.artworkUrlTemplate),
      if d.genre.Some? then Some([Text.Split(d.genre.value, '/')]) else None,
      error)
  }

  /**
   * `get_track_info` as written. A track missing from the cache raises
   * `KeyError` before anything happens. Otherwise the identifier is first
   * recorded (when the setting is on), and then: with a progressive
   * transcoding, its URL and codec are cached and returned, the error being
   * 'Already downloaded in album' exactly when the identifier had been
   * recorded before; without one, `download_type` is never bound and the
   * record construction raises `UnboundLocalError`. An unreadable year raises
   * `ValueError`. The recording survives every raise after it.
   */
  function GetTrackInfo(st: State, trackId: string): (r: (Result<TrackInfo, Error>, State))
    ensures (TrackKind, trackId) !in st.caches ==> r == (Failure(KeyError(trackId)), st)
    ensures (TrackKind, trackId) in st.caches ==>
      r.1.alreadyDownloaded == st.alreadyDownloaded + (if st.dontRedownload then [trackId] else [])
    ensures r.1 == st.(caches := r.1.caches, alreadyDownloaded := r.1.alreadyDownloaded)
    ensures r.0.Success? ==>
      && (TrackKind, trackId) in st.caches && st.caches[(TrackKind, trackId)].Document?
      && var d := st.caches[(TrackKind, trackId)].doc;
      var ts := d.transcodings;
      var j := Transcodings.FirstProgressive(ts);
      && j < |ts|
      && r.0.value.fileUrl == Some(ts[j].url)
      && r.0.value.codec == Some(Transcodings.CodecOf(ts[j].preset))
      && r.1.caches == st.caches[(FileUrlKind, trackId) := FileRef(ts[j].url, Transcodings.CodecOf(ts[j].preset))]
      && Text.ParseInt(YearText(d)) == Some(r.0.value.releaseYear)
    ensures r.0.Success? ==> (r.0.value.downloadType == Transcodings.TempFilePath <==> r.0.value.codec == Some("AAC"))
    ensures r.0.Success? ==> (r.0.value.error.Some? <==> trackId in st.alreadyDownloaded)
    ensures r.0.Success? ==> r.0.value.error.Some? ==> r.0.value.error.value == AlreadyDownloaded
    ensures r.0.Success? ==> r.0.value.fileUrlHeaders == AuthHeaders(st.accessToken)
    ensures (TrackKind, trackId) in st.caches && st.caches[(TrackKind, trackId)].Document? ==>
      var d := st.caches[(TrackKind, trackId)].doc;
      var ts := d.transcodings;
      Transcodings.FirstProgressive(ts) < |ts| && Text.ParseInt(YearText(d)).Some? ==> r.0.Success?
    ensures r.0.Failure? && !r.0.error.ValueError? ==> r.1.caches == st.caches
    ensures r.0.Failure? && r.0.error.ValueError? ==>
      && (TrackKind, trackId) in st.caches && st.caches[(TrackKind, trackId)].Document?
      && var ts := st.caches[(TrackKind, trackId)].doc.transcodings;
      var j := Transcodings.FirstProgressive(ts);
      && j < |ts|
      && r.1.caches == st.caches[(FileUrlKind, trackId) := FileRef(ts[j].url, Transcodings.CodecOf(ts[j].preset))]
  {
    if (TrackKind, trackId) !in st.caches then (Failure(KeyError(trackId)), st)
    else
      var error := if trackId in st.alreadyDownloaded then Some(AlreadyDownloaded) else None;
      var st1 := Record(st, trackId);
      match st.caches[(TrackKind, trackId)]
      case EmptyObject => (Failure(KeyError("media")), st1)
      case FileRef(_, _) => (Failure(TypeError(TupleIndexMessage)), st1)
      case Document(d) =>
        var ts := d.transcodings;
        var j := Transcodings.FirstProgressive(ts);
        if j == |ts| then (Failure(UnboundLocalError("download_type")), st1)
        else
          var codec := Transcodings.CodecOf(ts[j].preset);
          var st2 := st1.(caches := st1.caches[(FileUrlKind, trackId) := FileRef(ts[j].url, codec)]);
          match Text.ParseInt(YearText(d))
          case None => (Failure(ValueError(YearText(d))), st2)
          case Some(year) =>
            (Success(TrackRecord(st, d, Transcodings.DownloadModeFor(codec), Some(ts[j].url), Some(codec), year, error)), st2)
  }

  /**
   * A cached track without a progressive transcoding makes the call raise
   * instead of returning the per-track error 'Track not streamable'.
   */
  lemma NonStreamableRaises(st: State, trackId: string)
    requires (TrackKind, trackId) in st.caches && st.caches[(TrackKind, trackId)].Document?
    requires var ts := st.caches[(TrackKind, trackId)].doc.transcodings;
      forall i :: 0 <= i < |ts| ==> ts[i].protocol != Transcodings.Progressive
    ensures GetTrackInfo(st, trackId).0 == Failure(UnboundLocalError("download_type"))
    ensures forall id :: GetTrackInfo(st, id).0.Success? ==> GetTrackInfo(st, id).0.value.error != Some(NotStreamable)
  {
    Transcodings.NoProgressiveIff(st.caches[(TrackKind, trackId)].doc.transcodings);
  }

  /**
   * `get_track_info` with `download_type` bound to the URL mode together with
   * `file_url` and `codec`, so that a track without a progressive
   * transcoding comes back with the error 'Track not streamable', no URL and
   * no codec, and the file-URL cache untouched.
   */
  function GetTrackInfoIntended(st: State, trackId: string): (r: (Result<TrackInfo, Error>, State))
    ensures (TrackKind, trackId) !in st.caches ==> r == (Failure(KeyError(trackId)), st)
    ensures (TrackKind, trackId) in st.caches ==>
      r.1.alreadyDownloaded == st.alreadyDownloaded + (if st.dontRedownload then [trackId] else [])
    ensures r.1 == st.(caches := r.1.caches, alreadyDownloaded := r.1.alreadyDownloaded)
    ensures r.0.Success? ==>
      && (TrackKind, trackId) in st.caches && st.caches[(TrackKind, trackId)].Document?
      && var d := st.caches[(TrackKind, trackId)].doc;
      var ts := d.transcodings;
      var streamable := exists i :: 0 <= i < |ts| && ts[i].protocol == Transcodings.Progressive;
      && r.0.value.error == (if !streamable then Some(NotStreamable)
                             else if trackId in st.alreadyDownloaded then Some(AlreadyDownloaded)
                             else None)
      && (!streamable ==> r.0.value.fileUrl.None? && r.0.value.codec.None? && r.1.caches == st.caches)
      && (streamable ==>
            var j := Transcodings.FirstProgressive(ts);
            && j < |ts|
            && r.0.value.fileUrl == Some(ts[j].url)
            && r.0.value.codec == Some(Transcodings.CodecOf(ts[j].preset))
            && r.1.caches == st.caches[(FileUrlKind, trackId) := FileRef(ts[j].url, Transcodings.CodecOf(ts[j].preset))])
      && Text.ParseInt(YearText(d)) == Some(r.0.value.releaseYear)
    ensures r.0.Success? ==> (r.0.value.downloadType == Transcodings.TempFilePath <==> r.0.value.codec == Some("AAC"))
    ensures r.0.Success? ==> r.0.value.fileUrlHeaders == AuthHeaders(st.accessToken)
    ensures (TrackKind, trackId) in st.caches && st.caches[(TrackKind, trackId)].Document? ==>
      Text.ParseInt(YearText(st.caches[(TrackKind, trackId)].doc)).Some? ==> r.0.Success?
    ensures r.0.Failure? && !r.0.error.ValueError? ==> r.1.caches == st.caches
  {
    if (TrackKind, trackId) !in st.caches then (Failure(KeyError(trackId)), st)
    else
      var error := if trackId in st.alreadyDownloaded then Some(AlreadyDownloaded) else None;
      var st1 := Record(st, trackId);
      match st.caches[(TrackKind, trackId)]
      case EmptyObject => (Failure(KeyError("media")), st1)
      case FileRef(_, _) => (Failure(TypeError(TupleIndexMessage)), st1)
      case Document(d) =>
        var ts := d.transcodings;
        var j := Transcodings.FirstProgressive(ts);
        Transcodings.NoProgressiveIff(ts);
        var (mode, url, codec, error', st2) :=
          if j == |ts| then (Transcodings.Url, None, None, Some(NotStreamable), st1)
          else
            var c := Transcodings.CodecOf(ts[j].preset);
            (Transcodings.DownloadModeFor(c), Some(ts[j].url), Some(c), error,
             st1.(caches := st1.caches[(FileUrlKind, trackId) := FileRef(ts[j].url, c)]));
        match Text.ParseInt(YearText(d))
        case None => (Failure(ValueError(YearText(d))), st2)
        case Some(year) => (Success(TrackRecord(st, d, mode, url, codec, year, error')), st2)
  }

  /** With a readable year, a non-streamable track is a per-track error rather than a raise. */
  lemma IntendedReportsNotStreamable(st: State, trackId: string)
    requires (TrackKind, trackId) in st.caches && st.caches[(TrackKind, trackId)].Document?
    requires var d := st.caches[(TrackKind, trackId)].doc;
      && (forall i :: 0 <= i < |d.transcodings| ==> d.transcodings[i].protocol != Transcodings.Progressive)
      && Text.ParseInt(YearText(d)).Some?
    ensures GetTrackInfoIntended(st, trackId).0.Success?
    ensures GetTrackInfoIntended(st, trackId).0.value.error == Some(NotStreamable)
  {
    Transcodings.NoProgressiveIff(st.caches[(TrackKind, trackId)].doc.transcodings);
  }

  /**
   * On a track that has a progressive transcoding the correction changes
   * nothing: both mappings give the same outcome and the same state.
   */
  lemma IntendedAgreesWhenStreamable(st: State, trackId: string)
    requires (TrackKind, trackId) in st.caches && st.caches[(TrackKind, trackId)].Document?
    requires var ts := st.caches[(TrackKind, trackId)].doc.transcodings;
      Transcodings.FirstProgressive(ts) < |ts|
    ensures GetTrackInfoIntended(st, trackId) == GetTrackInfo(st, trackId)
  {
  }

  /**
   * The mappings differ only on a cached track without a progressive
   * transcoding: everywhere else they agree.
   */
  lemma IntendedDiffersOnlyWhenNotStreamable(st: State, trackId: string)
    requires GetTrackInfoIntended(st, trackId) != GetTrackInfo(st, trackId)
    ensures (TrackKind, trackId) in st.caches && st.caches[(TrackKind, trackId)].Document?
    ensures var ts := st.caches[(TrackKind, trackId)].doc.transcodings;
      forall i :: 0 <= i < |ts| ==> ts[i].protocol != Transcodings.Progressive
  {
    var ts := st.caches[(TrackKind, trackId)].doc.transcodings;
    Transcodings.NoProgressiveIff(ts);
  }

  /** A `published_at` of the form `<year>/...` yields that year. */
  lemma TrackYearFromDate(d: Doc, year: nat, rest: string)
    requires d.publishedAt == Text.Decimal(year) + "/" + rest
    ensures Text.ParseInt(YearText(d)) == Some(year)
  {
    var digits := Text.Decimal(year);
    assert '/' !in digits by {
      forall i | 0 <= i < |digits| ensures digits[i] != '/' {
        assert Text.IsDigit(digits[i]);
      }
    }
    Text.FirstSegmentOfConcat(digits, '/', rest);
    Text.ParseDecimal(year);
  }

  /**
   * The track cache after a merge of `entries` under `ids` (`update` on the
   * track dictionary): no earlier entry is dropped, entries whose key is not
   * among the merged ones are unchanged, each merged identifier holds its last
   * entry, and nothing else is added.
   */
  ghost predicate MergedTracks(before: Cache, after: Cache, ids: seq<string>, entries: seq<Entry>)
    requires |ids| == |entries|
  {
    && (forall key :: key in before ==> key in after)
    && (forall key :: key in before && !(key.0 == TrackKind && (key.1 == "track" || key.1 in ids)) ==> after[key] == before[key])
    && (forall i :: 0 <= i < |ids| && LastOccurrence(ids, i) ==>
          (TrackKind, ids[i]) in after && after[(TrackKind, ids[i])] == entries[i])
    && (TrackKind, "track") in after
    && (forall key :: key in after ==> key in before || (key.0 == TrackKind && (key.1 == "track" || key.1 in ids)))
  }

  /** The host's album record and playlist record, which carry the same fields here. */
  datatype ContainerInfo = ContainerInfo(name: string, owner: string, ownerId: string, coverUrl: string, releaseYear: int, tracks: seq<string>)

  /** The text before the first '-' of `release_date`, which `int()` reads as the year. */
  function ReleaseYearText(d: Doc): (r: string)
  {
    Text.FirstSegment(d.releaseDate, '-')
  }

  /**
   * `get_album_info` and `get_playlist_info`: a refused response raises and
   * changes nothing; otherwise the fetched track documents are merged into the
   * track cache, and the record lists the track identifiers in collection
   * order with the year read before the first '-' of `release_date`
   * (`ValueError`, after the merge, when it is not a number).
   */
  function GetContainerInfo(st: State, resp: Response<PlaylistPage>): (r: (Result<ContainerInfo, Error>, State))
    ensures resp.status !in RootApi.Accepted ==>
      r == (Failure(ModuleError(RootApi.StatusMessage(resp.status, resp.text))), st)
    ensures resp.status in RootApi.Accepted ==>
      && r.1 == st.(caches := r.1.caches)
      && MergedTracks(st.caches, r.1.caches, DocIds(resp.body.tracks), AsEntries(resp.body.tracks))
    ensures resp.status in RootApi.Accepted && Text.ParseInt(ReleaseYearText(resp.body.playlist)).None? ==>
      r.0 == Failure(ValueError(ReleaseYearText(resp.body.playlist)))
    ensures r.0.Success? ==>
      var p := resp.body.playlist;
      && r.0.value.tracks == DocIds(resp.body.tracks)
      && Text.ParseInt(ReleaseYearText(p)) == Some(r.0.value.releaseYear)
      && r.0.value.name == p.title && r.0.value.owner == p.uploader.username
    ensures resp.status in RootApi.Accepted && Text.ParseInt(ReleaseYearText(resp.body.playlist)).Some? ==> r.0.Success?
  {
    match RootApi.GetPlaylist(resp)
    case Failure(e) => (Failure(e), st)
    case Success(f) =>
      var st' := st.(caches := MergeKind(st.caches, TrackKind, f.cacheData));
      var p := f.playlist;
      match Text.ParseInt(ReleaseYearText(p))
      case None => (Failure(ValueError(ReleaseYearText(p))), st')
      case Some(year) =>
        (Success(ContainerInfo(p.title, p.uploader.username, p.uploader.permalink, CoverUrl(p.artworkUrlTemplate), year, f.tracks)), st')
  }

  /**
   * The playlist fetch leaves the empty object it started its cache data
   * with under the track key `'track'`; unless a fetched track has that
   * identifier, asking for track `'track'` then raises `KeyError`.
   */
  lemma PlaceholderAfterFetch(st: State, resp: Response<PlaylistPage>)
    requires resp.status in RootApi.Accepted
    requires "track" !in DocIds(resp.body.tracks)
    ensures GetContainerInfo(st, resp).1.caches[(TrackKind, "track")] == EmptyObject
    ensures GetTrackInfo(GetContainerInfo(st, resp).1, "track").0 == Failure(KeyError("media"))
  {
  }

  /** The host's artist record. */
  datatype ArtistInfo = ArtistInfo(name: string, albums: seq<string>, tracks: seq<string>)

  /**
   * `get_artist_info`: a refused response raises and changes nothing;
   * otherwise the posted tracks are merged into the track cache, and the
   * name is read from the cached user document, which raises `KeyError`
   * (after the merge) when the artist was never cached.
   */
  function GetArtistInfo(st: State, artistId: string, albumsResp: Response<seq<AlbumPost>>, tracksResp: Response<seq<TrackPost>>)
    : (r: (Result<ArtistInfo, Error>, State))
    ensures albumsResp.status !in RootApi.Accepted || tracksResp.status !in RootApi.Accepted ==>
      && RootApi.GetUserAlbumsTracks(albumsResp, tracksResp).Failure?
      && r == (Failure(RootApi.GetUserAlbumsTracks(albumsResp, tracksResp).error), st)
    ensures albumsResp.status in RootApi.Accepted && tracksResp.status in RootApi.Accepted ==>
      var posts := tracksResp.body;
      var ids := seq(|posts|, i requires 0 <= i < |posts| => IdOf(posts[i].targetUrn));
      var docs := seq(|posts|, i requires 0 <= i < |posts| => Document(posts[i].track));
      && r.1 == st.(caches := r.1.caches)
      && MergedTracks(st.caches, r.1.caches, ids, docs)
      && ((UserKind, artistId) !in st.caches ==> r.0 == Failure(KeyError(artistId)))
    ensures r.0.Success? ==>
      && (UserKind, artistId) in st.caches && st.caches[(UserKind, artistId)].Document?
      && r.0.value.name == st.caches[(UserKind, artistId)].doc.username
      && r.0.value.albums == RootApi.ExtractLibrary(albumsResp.body, tracksResp.body).albums
      && r.0.value.tracks == RootApi.ExtractLibrary(albumsResp.body, tracksResp.body).tracks
    ensures albumsResp.status in RootApi.Accepted && tracksResp.status in RootApi.Accepted ==>
      (UserKind, artistId) in st.caches && st.caches[(UserKind, artistId)].Document? ==> r.0.Success?
  {
    match RootApi.GetUserAlbumsTracks(albumsResp, tracksResp)
    case Failure(e) => (Failure(e), st)
    case Success(f) =>
      var st' := st.(caches := MergeKind(st.caches, TrackKind, f.cacheData));
      if (UserKind, artistId) !in st'.caches then (Failure(KeyError(artistId)), st')
      else match st'.caches[(UserKind, artistId)]
        case Document(u) => (Success(ArtistInfo(u.username, f.albums, f.tracks)), st')
        case EmptyObject => (Failure(KeyError("username")), st')
        case FileRef(_, _) => (Failure(TypeError(TupleIndexMessage)), st')
  }

  /**
   * `search` in this revision: the query type is checked first, then the
   * request goes through the client's status check, so an unsupported type
   * or a refused response raises '<status>: <text>' before anything is
   * cached; an accepted response is then filtered, reported and cached as
   * `Search.SearchCall` describes.
   */
  function SearchMedia(st: State, queryType: MediaKind, limit: int, resp: Response<seq<Doc>>)
    : (r: (Result<seq<Search.SearchResult>, Error>, State))
    ensures r.1 == st.(caches := r.1.caches)
    ensures r.0.Failure? <==> queryType.Other? || resp.status !in RootApi.Accepted
    ensures queryType.Other? ==>
      r == (Failure(ModuleError("Query type " + queryType.name + " is unsupported")), st)
    ensures !queryType.Other? && resp.status !in RootApi.Accepted ==>
      r == (Failure(ModuleError(RootApi.StatusMessage(resp.status, resp.text))), st)
    ensures r.0.Success? ==> (r.0, r.1.caches) == Search.SearchCall(st.caches, queryType, limit, resp.body)
  {
    match Search.Plan(queryType, limit)
    case Failure(e) => (Failure(e), st)
    case Success(_) =>
      match RootApi.CheckStatus(resp)
      case Failure(e) => (Failure(e), st)
      case Success(collection) =>
        var (results, caches) := Search.SearchCall(st.caches, queryType, limit, collection);
        (results, st.(caches := caches))
  }

  /**
   * A track found by a search can be asked for on the same state afterwards:
   * it is cached as a document, so the lookup neither misses nor hits a
   * `(url, codec)` pair.
   */
  lemma SearchedTrackIsCached(st: State, limit: int, resp: Response<seq<Doc>>, i: int)
    requires SearchMedia(st, Track, limit, resp).0.Success?
    requires 0 <= i < |SearchMedia(st, Track, limit, resp).0.value|
    ensures var (results, st') := SearchMedia(st, Track, limit, resp);
      var id := results.value[i].resultId;
      var r := GetTrackInfo(st', id).0;
      r != Failure(KeyError(id)) && r != Failure(KeyError("media")) && !(r.Failure? && r.error.TypeError?)
  {
  }

  /** A merge of entries that are not `(url, codec)` pairs keeps the cache shape. */
  lemma MergeKeepsCacheShape(c: Cache, m: map<string, Entry>)
    requires FileRefsUnderFileUrl(c)
    requires forall id :: id in m ==> !m[id].FileRef?
    ensures FileRefsUnderFileUrl(MergeKind(c, TrackKind, m))
  {
  }

  /** Cache data filled from documents, beside the empty `'track'` object, holds no pair. */
  lemma TopLevelDataHoldsNoPair(ids: seq<string>, docs: seq<Doc>)
    requires |ids| == |docs|
    ensures var m := RootApi.TopLevelCacheData(ids, AsEntries(docs));
      forall id :: id in m ==> !m[id].FileRef?
  {
    var es := AsEntries(docs);
    var m := RootApi.TopLevelCacheData(ids, es);
    forall id | id in m ensures !m[id].FileRef? {
      if id in ids {
        var k :| 0 <= k < |ids| && ids[k] == id;
        var j := LastOccurrenceExists(ids, k);
        assert m[id] == es[j];
      }
    }
  }

  /**
   * Only the file_url kind holds `(url, codec)` pairs in the state `Init`
   * builds, and resolution keeps it that way.
   */
  lemma ResolveKeepsCacheShape(st: State, response: Response<map<string, Doc>>)
    requires FileRefsUnderFileUrl(st.caches)
    ensures FileRefsUnderFileUrl(Init(st.accessToken, st.dontRedownload).caches)
    ensures FileRefsUnderFileUrl(CustomUrlParse(st, response).1.caches)
  {
  }

  /**
   * Track lookup keeps the cache shape, and on such a cache its `TypeError`
   * branch is never taken.
   */
  lemma TrackLookupKeepsCacheShape(st: State, trackId: string)
    requires FileRefsUnderFileUrl(st.caches)
    ensures FileRefsUnderFileUrl(GetTrackInfo(st, trackId).1.caches)
    ensures !(GetTrackInfo(st, trackId).0.Failure? && GetTrackInfo(st, trackId).0.error.TypeError?)
  {
  }

  /** Search adds only documents, so it keeps the cache shape. */
  lemma SearchKeepsCacheShape(st: State, queryType: MediaKind, limit: int, resp: Response<seq<Doc>>)
    requires FileRefsUnderFileUrl(st.caches)
    ensures FileRefsUnderFileUrl(SearchMedia(st, queryType, limit, resp).1.caches)
  {
  }

  /** Album and playlist fetches keep the cache shape. */
  lemma ContainerFetchKeepsCacheShape(st: State, resp: Response<PlaylistPage>)
    requires FileRefsUnderFileUrl(st.caches)
    ensures FileRefsUnderFileUrl(GetContainerInfo(st, resp).1.caches)
  {
    if resp.status in RootApi.Accepted {
      TopLevelDataHoldsNoPair(DocIds(resp.body.tracks), resp.body.tracks);
      MergeKeepsCacheShape(st.caches, RootApi.ExtractPlaylist(resp.body).cacheData);
    }
  }

  /** Artist fetches keep the cache shape, so their `TypeError` branch is never taken. */
  lemma ArtistFetchKeepsCacheShape(st: State, artistId: string, albumsResp: Response<seq<AlbumPost>>,
                                   tracksResp: Response<seq<TrackPost>>)
    requires FileRefsUnderFileUrl(st.caches)
    ensures FileRefsUnderFileUrl(GetArtistInfo(st, artistId, albumsResp, tracksResp).1.caches)
    ensures !(GetArtistInfo(st, artistId, albumsResp, tracksResp).0.Failure?
              && GetArtistInfo(st, artistId, albumsResp, tracksResp).0.error.TypeError?)
  {
    if albumsResp.status in RootApi.Accepted && tracksResp.status in RootApi.Accepted {
      var posts := tracksResp.body;
      var ids := seq(|posts|, i requires 0 <= i < |posts| => IdOf(posts[i].targetUrn));
      var docs := seq(|posts|, i requires 0 <= i < |posts| => posts[i].track);
      assert AsEntries(docs) == seq(|posts|, i requires 0 <= i < |posts| => Document(posts[i].track));
      TopLevelDataHoldsNoPair(ids, docs);
      MergeKeepsCacheShape(st.caches, RootApi.ExtractLibrary(albumsResp.body, posts).cacheData);
    }
  }
}

=== FILE: search.dfy ===
/**
 * `search`, identical in both revisions: the query type picks an endpoint and
 * a request size, and the response collection is filtered, truncated and
 * cached.
 */
module Search {
  import opened Wrappers
  import opened Documents

  /** The `mode` string of the source, which tells albums from plain playlists. */
  datatype Mode = ArtistMode | PlaylistMode | AlbumMode | TrackMode

  /** The request `search` issues: `search/<kind>s` with `count` items asked for. */
  datatype SearchRequest = SearchRequest(kind: Kind, mode: Mode, endpoint: string, count: int)

  /** The host's search-result record. */
  datatype SearchResult = SearchResult(resultId: string, name: string, artists: Option<seq<string>>)

  /**
   * The query-type dispatch: artists search users, playlists and albums both
   * search playlists (albums in album mode), tracks search tracks, and any
   * other type is refused. Playlist searches ask for four times the limit.
   */
  function Plan(queryType: MediaKind, limit: int): (r: Result<SearchRequest, Error>)
    ensures r.Failure? <==> queryType.Other?
    ensures r.Failure? ==> r.error == ModuleError("Query type " + queryType.name + " is unsupported")
    ensures r.Success? ==> r.value.endpoint == KindName(r.value.kind) + "s"
    ensures r.Success? ==> (r.value.kind == UserKind <==> queryType == Artist)
    ensures r.Success? ==> (r.value.kind == TrackKind <==> queryType == Track)
    ensures r.Success? ==> (r.value.kind == PlaylistKind <==> queryType == Playlist || queryType == Album)
    ensures r.Success? ==> (r.value.mode == AlbumMode <==> queryType == Album)
    ensures r.Success? && r.value.kind == PlaylistKind ==> r.value.mode in {PlaylistMode, AlbumMode}
    ensures r.Success? ==> r.value.count == if r.value.kind == PlaylistKind then limit * 4 else limit
  {
    var (kind, mode) :=
      match queryType
      case Artist => (UserKind, ArtistMode)
      case Playlist => (PlaylistKind, PlaylistMode)
      case Album => (PlaylistKind, AlbumMode)
      case Track => (TrackKind, TrackMode)
      case Other(_) => (FileUrlKind, TrackMode);
    if queryType.Other? then Failure(ModuleError("Query type " + queryType.name + " is unsupported"))
    else Success(SearchRequest(kind, mode, KindName(kind) + "s", if kind == PlaylistKind then limit * 4 else limit))
  }

  /** The filter of the search loop: playlists must agree with the mode on `is_album`. */
  predicate Keep(req: SearchRequest, d: Doc)
  {
    req.kind != PlaylistKind
    || (d.isAlbum && req.mode == AlbumMode)
    || (!d.isAlbum && req.mode == PlaylistMode)
  }

  /** The result record built from a kept document. */
  function Summary(req: SearchRequest, d: Doc): (r: SearchResult)
  {
    SearchResult(
      IdOf(d.urn),
      if req.kind != UserKind then d.title else d.username,
      if req.kind != UserKind then Some([d.uploader.username]) else None)
  }

  function Summaries(req: SearchRequest, docs: seq<Doc>): (r: seq<SearchResult>)
  {
    seq(|docs|, i requires 0 <= i < |docs| => Summary(req, docs[i]))
  }

  /** The documents the filter keeps, in order. */
  function Kept(req: SearchRequest, docs: seq<Doc>): (r: seq<Doc>)
    decreases |docs|
  {
    if |docs| == 0 then []
    else
      var n := |docs| - 1;
      Kept(req, docs[..n]) + if Keep(req, docs[n]) then [docs[n]] else []
  }

  /** The first `n` elements, or all of them when there are fewer. */
  function Take<T>(s: seq<T>, n: int): (r: seq<T>)
  {
    if |s| <= n then s else if n <= 0 then [] else s[..n]
  }

  /**
   * The documents the search reports. With a positive limit these are the
   * first `limit` kept ones; otherwise only the first document is examined,
   * because the limit is checked after it has been processed.
   */
  function Hits(req: SearchRequest, limit: int, collection: seq<Doc>): (r: seq<Doc>)
  {
    if limit >= 1 then Take(Kept(req, collection), limit)
    else Kept(req, collection[..if |collection| == 0 then 0 else 1])
  }

  /** The (id -> document) entries a sequence of documents adds to a cache, the last one winning. */
  function CacheOf(docs: seq<Doc>): (r: map<string, Entry>)
  {
    IndexById(DocIds(docs), AsEntries(docs))
  }

  /** Everything a sequence of documents adds to a cache is a document. */
  lemma CacheOfHoldsDocuments(docs: seq<Doc>)
    ensures forall id :: id in CacheOf(docs) ==> CacheOf(docs)[id].Document?
  {
    var ids := DocIds(docs);
    forall id | id in CacheOf(docs) ensures CacheOf(docs)[id].Document? {
      var i :| 0 <= i < |ids| && ids[i] == id;
      var j := LastOccurrenceExists(ids, i);
    }
  }

  lemma {:induction false} KeptAppend(req: SearchRequest, a: seq<Doc>, b: seq<Doc>)
    ensures Kept(req, a + b) == Kept(req, a) + Kept(req, b)
    decreases |b|
  {
    if |b| > 0 {
      var n := |b| - 1;
      KeptAppend(req, a, b[..n]);
      assert (a + b)[..|a + b| - 1] == a + b[..n];
    } else {
      assert a + b == a;
    }
  }

  lemma CacheOfStep(docs: seq<Doc>, d: Doc)
    ensures CacheOf(docs + [d]) == CacheOf(docs)[IdOf(d.urn) := Document(d)]
  {
    var n := |docs|;
    assert DocIds(docs + [d])[..n] == DocIds(docs);
    assert AsEntries(docs + [d])[..n] == AsEntries(docs);
  }

  lemma MergeKindStep(c: Cache, k: Kind, m: map<string, Entry>, id: string, e: Entry)
    ensures MergeKind(c, k, m[id := e]) == MergeKind(c, k, m)[(k, id) := e]
  {
    var l := MergeKind(c, k, m[id := e]);
    var r := MergeKind(c, k, m)[(k, id) := e];
    assert l.Keys == r.Keys;
    forall key | key in l ensures l[key] == r[key] {
    }
  }

  lemma KeptStep(req: SearchRequest, docs: seq<Doc>, idx: int)
    requires 0 <= idx < |docs|
    ensures Kept(req, docs[..idx + 1]) == Kept(req, docs[..idx]) + if Keep(req, docs[idx]) then [docs[idx]] else []
  {
    assert docs[..idx + 1][..idx] == docs[..idx];
  }

  /** Keeping one more document extends the results by its summary and caches it. */
  lemma SearchStep(req: SearchRequest, caches: Cache, hits: seq<Doc>, d: Doc)
    ensures Summaries(req, hits + [d]) == Summaries(req, hits) + [Summary(req, d)]
    ensures MergeKind(caches, req.kind, CacheOf(hits + [d]))
         == MergeKind(caches, req.kind, CacheOf(hits))[(req.kind, IdOf(d.urn)) := Document(d)]
  {
    CacheOfStep(hits, d);
    MergeKindStep(caches, req.kind, CacheOf(hits), IdOf(d.urn), Document(d));
  }

  /**
   * The search loop: documents are examined in order, the kept ones are
   * cached under the request's kind and summarised, and the loop stops once
   * the number of results has reached the limit.
   */
  method RunSearch(req: SearchRequest, limit: int, collection: seq<Doc>, caches: Cache)
    returns (results: seq<SearchResult>, caches': Cache)
    ensures results == Summaries(req, Hits(req, limit, collection))
    ensures caches' == MergeKind(caches, req.kind, CacheOf(Hits(req, limit, collection)))
  {
    results := [];
    caches' := caches;
    ghost var hits: seq<Doc> := [];
    var idx := 0;
    while idx < |collection| && (idx == 0 || |results| < limit)
      invariant 0 <= idx <= |collection|
      invariant limit <= 0 ==> idx <= 1
      invariant hits == Kept(req, collection[..idx])
      invariant results == Summaries(req, hits)
      invariant caches' == MergeKind(caches, req.kind, CacheOf(hits))
      invariant idx > 1 ==> |Kept(req, collection[..idx - 1])| < limit
    {
      var d := collection[idx];
      KeptStep(req, collection, idx);
      if Keep(req, d) {
        var id := IdOf(d.urn);
        SearchStep(req, caches, hits, d);
        caches' := caches'[(req.kind, id) := Document(d)];
        results := results + [Summary(req, d)];
        hits := hits + [d];
      }
      idx := idx + 1;
    }
    ScanEndsAtHits(req, limit, collection, idx);
  }

  /** Where the loop stops, the kept prefix it has scanned is exactly `Hits`. */
  lemma ScanEndsAtHits(req: SearchRequest, limit: int, collection: seq<Doc>, idx: int)
    requires 0 <= idx <= |collection|
    requires limit <= 0 ==> idx <= 1
    requires idx > 1 ==> |Kept(req, collection[..idx - 1])| < limit
    requires !(idx < |collection| && (idx == 0 || |Kept(req, collection[..idx])| < limit))
    ensures Kept(req, collection[..idx]) == Hits(req, limit, collection)
  {
    var hits := Kept(req, collection[..idx]);
    assert collection == collection[..idx] + collection[idx..];
    KeptAppend(req, collection[..idx], collection[idx..]);
    if limit >= 1 {
      if idx < |collection| {
        if idx > 0 {
          assert collection[..idx][..idx - 1] == collection[..idx - 1];
          assert |hits| <= |Kept(req, collection[..idx - 1])| + 1;
        }
        assert |hits| == limit;
      }
    }
  }

  /** `idx` places each element of `a` in `b`, at strictly increasing positions. */
  ghost predicate EmbedsAt<T>(a: seq<T>, b: seq<T>, idx: seq<int>)
  {
    && |idx| == |a|
    && (forall i :: 0 <= i < |idx| ==> 0 <= idx[i] < |b| && a[i] == b[idx[i]])
    && (forall i, j :: 0 <= i < j < |idx| ==> idx[i] < idx[j])
  }

  /** `a` is `b` with some elements left out and the order kept. */
  ghost predicate IsSubsequence<T>(a: seq<T>, b: seq<T>)
  {
    exists idx :: EmbedsAt(a, b, idx)
  }

  lemma {:induction false} KeptEmbeds(req: SearchRequest, docs: seq<Doc>) returns (idx: seq<int>)
    ensures EmbedsAt(Kept(req, docs), docs, idx)
    ensures forall i :: 0 <= i < |idx| ==> Keep(req, docs[idx[i]])
    decreases |docs|
  {
    if |docs| == 0 {
      idx := [];
    } else {
      var n := |docs| - 1;
      var prior := KeptEmbeds(req, docs[..n]);
      if Keep(req, docs[n]) {
        idx := prior + [n];
      } else {
        idx := prior;
      }
    }
  }

  /** A document is kept exactly when it is in the collection and passes the filter. */
  lemma {:induction false} KeptMembership(req: SearchRequest, docs: seq<Doc>, d: Doc)
    ensures d in Kept(req, docs) <==> d in docs && Keep(req, d)
    decreases |docs|
  {
    if |docs| > 0 {
      var n := |docs| - 1;
      KeptMembership(req, docs[..n], d);
      assert docs == docs[..n] + [docs[n]];
    }
  }

  /**
   * The reported documents are an order-preserving selection of the
   * collection, each one passing the filter, forming a prefix of all kept
   * ones; there are at most `limit` of them for a positive limit and at most
   * one otherwise, and nothing kept is dropped while the limit is not reached.
   */
  lemma HitsProperties(req: SearchRequest, limit: int, collection: seq<Doc>)
    ensures var hits := Hits(req, limit, collection);
      && IsSubsequence(hits, collection)
      && (forall i :: 0 <= i < |hits| ==> Keep(req, hits[i]))
      && hits <= Kept(req, collection)
      && (limit >= 1 ==> |hits| <= limit)
      && (limit < 1 ==> |hits| <= 1)
      && (limit >= 1 && |Kept(req, collection)| <= limit ==> hits == Kept(req, collection))
      && (limit >= 1 && |Kept(req, collection)| >= limit ==> |hits| == limit)
  {
    var hits := Hits(req, limit, collection);
    var all := Kept(req, collection);
    if limit < 1 {
      var m := if |collection| == 0 then 0 else 1;
      assert collection == collection[..m] + collection[m..];
      KeptAppend(req, collection[..m], collection[m..]);
      if m == 1 {
        assert collection[..1][..0] == [];
      }
    }
    assert hits <= all;
    var idx := KeptEmbeds(req, collection);
    assert EmbedsAt(hits, collection, idx[..|hits|]);
  }

  /**
   * A playlist or album search reports only playlists whose `is_album` flag
   * says album exactly when albums were asked for.
   */
  lemma PlaylistResultsMatchMode(queryType: MediaKind, limit: int, collection: seq<Doc>)
    requires queryType == Playlist || queryType == Album
    ensures Plan(queryType, limit).Success?
    ensures var hits := Hits(Plan(queryType, limit).value, limit, collection);
      forall i :: 0 <= i < |hits| ==> hits[i].isAlbum == (queryType == Album)
  {
    HitsProperties(Plan(queryType, limit).value, limit, collection);
  }

  /**
   * After a search, every reported result is cached under the searched kind,
   * holding a document with that identifier which passed the filter.
   */
  lemma SearchCachesResults(req: SearchRequest, limit: int, collection: seq<Doc>, caches: Cache)
    ensures var hits := Hits(req, limit, collection);
      var after := MergeKind(caches, req.kind, CacheOf(hits));
      var results := Summaries(req, hits);
      forall i :: 0 <= i < |results| ==>
        && (req.kind, results[i].resultId) in after
        && after[(req.kind, results[i].resultId)].Document?
        && IdOf(after[(req.kind, results[i].resultId)].doc.urn) == results[i].resultId
        && Keep(req, after[(req.kind, results[i].resultId)].doc)
  {
    var hits := Hits(req, limit, collection);
    var results := Summaries(req, hits);
    var ids := DocIds(hits);
    var after := MergeKind(caches, req.kind, CacheOf(hits));
    HitsProperties(req, limit, collection);
    forall i | 0 <= i < |results|
      ensures (req.kind, results[i].resultId) in after
      ensures after[(req.kind, results[i].resultId)].Document?
      ensures IdOf(after[(req.kind, results[i].resultId)].doc.urn) == results[i].resultId
      ensures Keep(req, after[(req.kind, results[i].resultId)].doc)
    {
      var j := LastOccurrenceExists(ids, i);
      assert ids[i] == results[i].resultId;
      assert CacheOf(hits)[ids[j]] == AsEntries(hits)[j];
    }
  }

  /**
   * A search adds no cache key other than its results' identifiers under the
   * searched kind, and leaves the entries of the other kinds unchanged.
   */
  lemma SearchCachesNothingElse(req: SearchRequest, limit: int, collection: seq<Doc>, caches: Cache)
    ensures var hits := Hits(req, limit, collection);
      var after := MergeKind(caches, req.kind, CacheOf(hits));
      var results := Summaries(req, hits);
      && (forall key :: key in after ==>
            key in caches || (key.0 == req.kind && exists i :: 0 <= i < |results| && results[i].resultId == key.1))
      && (forall key :: key in caches && key.0 != req.kind ==> key in after && after[key] == caches[key])
  {
    var hits := Hits(req, limit, collection);
    var results := Summaries(req, hits);
    var ids := DocIds(hits);
    var after := MergeKind(caches, req.kind, CacheOf(hits));
    forall key | key in after
      ensures key in caches || (key.0 == req.kind && exists i :: 0 <= i < |results| && results[i].resultId == key.1)
    {
      if key !in caches {
        var i :| 0 <= i < |ids| && ids[i] == key.1;
        assert results[i].resultId == key.1;
      }
    }
  }

  /**
   * `search` as one call on the caches, given the decoded response
   * collection, as the nested revision runs it (its client reads the body
   * whatever the status): an unsupported query type raises before anything
   * is cached; otherwise the summaries of the reported documents come back
   * and each one is cached, as a document with that identifier, under the
   * searched kind, while every earlier entry stays and only documents are
   * added. The root revision puts its status check in front
   * (`RootInterface.SearchMedia`).
   */
  function SearchCall(caches: Cache, queryType: MediaKind, limit: int, collection: seq<Doc>)
    : (r: (Result<seq<SearchResult>, Error>, Cache))
    ensures r.0.Failure? <==> queryType.Other?
    ensures r.0.Failure? ==> r.0.error == ModuleError("Query type " + queryType.name + " is unsupported") && r.1 == caches
    ensures r.0.Success? ==> |r.0.value| <= if limit >= 1 then limit else 1
    ensures r.0.Success? ==>
      var req := Plan(queryType, limit).value;
      r.0.value == Summaries(req, Hits(req, limit, collection))
    ensures r.0.Success? ==>
      var kind := Plan(queryType, limit).value.kind;
      forall i :: 0 <= i < |r.0.value| ==>
        && (kind, r.0.value[i].resultId) in r.1
        && r.1[(kind, r.0.value[i].resultId)].Document?
        && IdOf(r.1[(kind, r.0.value[i].resultId)].doc.urn) == r.0.value[i].resultId
    ensures forall key :: key in caches ==> key in r.1
    ensures forall key :: key in r.1 ==> (key in caches && r.1[key] == caches[key]) || r.1[key].Document?
  {
    match Plan(queryType, limit)
    case Failure(e) => (Failure(e), caches)
    case Success(req) =>
      var hits := Hits(req, limit, collection);
      HitsProperties(req, limit, collection);
      SearchCachesResults(req, limit, collection, caches);
      CacheOfHoldsDocuments(hits);
      (Success(Summaries(req, hits)), MergeKind(caches, req.kind, CacheOf(hits)))
  }
}

=== FILE: text.dfy ===
/**
 * The string operations the plugin applies to the vendor's documents:
 * `str.split` with a one-character separator, the first and last piece of a
 * split, ASCII `str.upper`, `int()` on a decimal literal, `str(int)` and
 * `str.replace`.
 */
module Text {
  import opened Wrappers

  /** Concatenation of `pieces` with `sep` between neighbours (`sep.join`). */
  function Join(pieces: seq<string>, sep: char): (r: string)
    decreases |pieces|
  {
    if |pieces| == 0 then ""
    else if |pieces| == 1 then pieces[0]
    else pieces[0] + [sep] + Join(pieces[1..], sep)
  }

  /**
   * `s.split(sep)`: the pieces between the occurrences of `sep`. There is
   * always at least one piece, no piece holds the separator, and joining the
   * pieces again gives back `s`.
   */
  function Split(s: string, sep: char): (pieces: seq<string>)
    ensures |pieces| >= 1
    ensures forall i :: 0 <= i < |pieces| ==> sep !in pieces[i]
    ensures Join(pieces, sep) == s
    decreases |s|
  {
    if |s| == 0 then [""]
    else
      var rest := Split(s[1..], sep);
      if s[0] == sep then
        assert ([""] + rest)[1..] == rest;
        [""] + rest
      else
        var head := [s[0]] + rest[0];
        assert ([head] + rest[1..])[1..] == rest[1..];
        assert s == [s[0]] + s[1..];
        [head] + rest[1..]
  }

  /** Any separator-free decomposition of `s` is the one `Split` returns. */
  lemma {:induction false} SplitUnique(s: string, sep: char, pieces: seq<string>)
    requires |pieces| >= 1
    requires forall i :: 0 <= i < |pieces| ==> sep !in pieces[i]
    requires Join(pieces, sep) == s
    ensures pieces == Split(s, sep)
    decreases |s|, |pieces[0]|
  {
    if |s| == 0 {
      if |pieces| > 1 {
        assert false;
      }
    } else if |pieces[0]| == 0 {
      if |pieces| == 1 {
        assert false;
      }
      assert s == [sep] + Join(pieces[1..], sep);
      assert s[1..] == Join(pieces[1..], sep);
      SplitUnique(s[1..], sep, pieces[1..]);
      assert pieces == [""] + pieces[1..];
    } else {
      var tail := [pieces[0][1..]] + pieces[1..];
      assert s[0] == pieces[0][0];
      assert pieces[0][0] != sep by { assert pieces[0][0] in pieces[0]; }
      assert Join(tail, sep) == s[1..] by {
        if |pieces| == 1 {
          assert Join(tail, sep) == pieces[0][1..];
        } else {
          assert tail[1..] == pieces[1..];
          assert Join(tail, sep) == pieces[0][1..] + [sep] + Join(pieces[1..], sep);
        }
      }
      forall i | 0 <= i < |tail| ensures sep !in tail[i] {
        if i == 0 {
          assert forall c :: c in pieces[0][1..] ==> c in pieces[0];
        } else {
          assert tail[i] == pieces[i];
        }
      }
      SplitUnique(s[1..], sep, tail);
      assert pieces[0] == [s[0]] + tail[0];
      assert pieces == [pieces[0]] + tail[1..];
    }
  }

  /** `s.split(sep)[0]`. */
  function FirstSegment(s: string, sep: char): (r: string)
  {
    Split(s, sep)[0]
  }

  /** `s.split(sep)[-1]`. */
  function LastSegment(s: string, sep: char): (r: string)
  {
    var pieces := Split(s, sep);
    pieces[|pieces| - 1]
  }

  lemma {:induction false} JoinHead(pieces: seq<string>, sep: char)
    requires |pieces| >= 1
    ensures pieces[0] <= Join(pieces, sep)
    ensures |pieces| == 1 <==> |Join(pieces, sep)| == |pieces[0]|
    ensures |pieces| > 1 ==> Join(pieces, sep)[|pieces[0]|] == sep
  {
    if |pieces| > 1 {
      var j := Join(pieces, sep);
      assert j == pieces[0] + [sep] + Join(pieces[1..], sep);
      assert j[..|pieces[0]|] == pieces[0];
    }
  }

  lemma {:induction false} JoinTail(pieces: seq<string>, sep: char)
    requires |pieces| >= 1
    ensures var j, last := Join(pieces, sep), pieces[|pieces| - 1];
      && |last| <= |j|
      && j[|j| - |last|..] == last
      && (|pieces| == 1 <==> |j| == |last|)
      && (|pieces| > 1 ==> j[|j| - |last| - 1] == sep)
    decreases |pieces|
  {
    if |pieces| > 1 {
      JoinTail(pieces[1..], sep);
      var j := Join(pieces, sep);
      var rest := Join(pieces[1..], sep);
      assert j == (pieces[0] + [sep]) + rest;
      assert pieces[1..][|pieces[1..]| - 1] == pieces[|pieces| - 1];
      var last := pieces[|pieces| - 1];
      assert j[|j| - |last|..] == rest[|rest| - |last|..];
      if |pieces| == 2 {
        assert j[|j| - |last| - 1] == sep;
      } else {
        assert j[|j| - |last| - 1] == rest[|rest| - |last| - 1];
      }
    }
  }

  /**
   * The first piece is the longest prefix of `s` free of `sep`: it is a prefix,
   * it holds no separator, and it ends where `s` ends or just before a separator.
   */
  lemma FirstSegmentIsLongestPrefix(s: string, sep: char)
    ensures var r := FirstSegment(s, sep);
      && r <= s
      && sep !in r
      && (|r| == |s| || s[|r|] == sep)
  {
    var pieces := Split(s, sep);
    JoinHead(pieces, sep);
  }

  /**
   * The last piece is the longest suffix of `s` free of `sep`: it is a suffix,
   * it holds no separator, and it starts where `s` starts or just after a separator.
   */
  lemma LastSegmentIsLongestSuffix(s: string, sep: char)
    ensures var r := LastSegment(s, sep);
      && |r| <= |s|
      && s[|s| - |r|..] == r
      && sep !in r
      && (|r| == |s| || s[|s| - |r| - 1] == sep)
  {
    var pieces := Split(s, sep);
    JoinTail(pieces, sep);
  }

  /** Text made of a separator-free head, the separator and anything else splits first into the head. */
  lemma FirstSegmentOfConcat(head: string, sep: char, rest: string)
    requires sep !in head
    ensures FirstSegment(head + [sep] + rest, sep) == head
  {
    var s := head + [sep] + rest;
    var f := FirstSegment(s, sep);
    FirstSegmentIsLongestPrefix(s, sep);
    assert s[|head|] == sep;
    assert f == s[..|head|] == head;
  }

  /** ASCII `str.upper` on one character. */
  function UpperChar(c: char): (r: char)
  {
    if 'a' <= c <= 'z' then (c as int - 32) as char else c
  }

  /** `s.upper()` restricted to ASCII letters. */
  function Upper(s: string): (r: string)
  {
    seq(|s|, i requires 0 <= i < |s| => UpperChar(s[i]))
  }

  predicate IsDigit(c: char)
  {
    '0' <= c <= '9'
  }

  predicate AllDigits(s: string)
  {
    forall i :: 0 <= i < |s| ==> IsDigit(s[i])
  }

  function DigitValue(c: char): (r: nat)
    requires IsDigit(c)
  {
    c as int - '0' as int
  }

  function DigitChar(d: nat): (r: char)
    requires d < 10
  {
    ('0' as int + d) as char
  }

  /** The value of a string of decimal digits. */
  function DigitsValue(s: string): (r: nat)
    requires AllDigits(s)
    decreases |s|
  {
    if |s| == 0 then 0
    else DigitsValue(s[..|s| - 1]) * 10 + DigitValue(s[|s| - 1])
  }

  /**
   * `int(s)` on a decimal literal: defined exactly when `s` is a non-empty run
   * of ASCII digits; `None` stands for the `ValueError` Python raises.
   */
  function ParseInt(s: string): (r: Option<nat>)
  {
    if |s| > 0 && AllDigits(s) then Some(DigitsValue(s)) else None
  }

  /** `str(n)` for a natural number: a non-empty run of decimal digits. */
  function Decimal(n: nat): (r: string)
    ensures |r| > 0
    ensures AllDigits(r)
    ensures n >= 10 ==> r[0] != '0'
    decreases n
  {
    if n < 10 then [DigitChar(n)]
    else Decimal(n / 10) + [DigitChar(n % 10)]
  }

  /** `str(n)` for any integer. */
  function IntText(n: int): (r: string)
  {
    if n < 0 then "-" + Decimal(-n) else Decimal(n)
  }

  /** Reading back what `str` wrote gives the same number. */
  lemma {:induction false} ParseDecimal(n: nat)
    ensures ParseInt(Decimal(n)) == Some(n)
    decreases n
  {
    var d := Decimal(n);
    if n >= 10 {
      ParseDecimal(n / 10);
      assert d[..|d| - 1] == Decimal(n / 10);
      assert DigitsValue(d) == DigitsValue(Decimal(n / 10)) * 10 + n % 10;
    }
  }

  /** `pat` occurs in `s` at position `i`. */
  predicate OccursAt(s: string, pat: string, i: int)
  {
    0 <= i && i + |pat| <= |s| && s[i..i + |pat|] == pat
  }

  /** `s.replace(pat, rep)`: every non-overlapping occurrence, left to right. */
  function ReplaceAll(s: string, pat: string, rep: string): (r: string)
    requires |pat| > 0
    ensures (forall i :: 0 <= i <= |s| ==> !OccursAt(s, pat, i)) ==> r == s
    decreases |s|
  {
    if |s| < |pat| then s
    else if s[..|pat|] == pat then
      assert OccursAt(s, pat, 0);
      rep + ReplaceAll(s[|pat|..], pat, rep)
    else
      var rest := ReplaceAll(s[1..], pat, rep);
      assert (forall i :: 0 <= i <= |s| ==> !OccursAt(s, pat, i)) ==>
             (forall i :: 0 <= i <= |s[1..]| ==> !OccursAt(s[1..], pat, i)) by {
        forall i | 0 <= i <= |s[1..]| && OccursAt(s[1..], pat, i)
          ensures OccursAt(s, pat, i + 1)
        {
          assert s[1..][i..i + |pat|] == s[i + 1..i + 1 + |pat|];
        }
      }
      assert s == [s[0]] + s[1..];
      [s[0]] + rest
  }
}

=== FILE: transcodings.dfy ===
/** Choosing the stream of a track from its `media.transcodings` list. */
module Transcodings {
  import Text
  import opened Documents

  const Progressive := "progressive"

  /**
   * The position of the first transcoding whose protocol is progressive, or
   * the length of the list when there is none (the `for ... break ... else`
   * loop of both revisions).
   */
  function FirstProgressive(ts: seq<Transcoding>): (j: nat)
    ensures j <= |ts|
    ensures forall i :: 0 <= i < j ==> ts[i].protocol != Progressive
    ensures j < |ts| ==> ts[j].protocol == Progressive
    decreases |ts|
  {
    if |ts| == 0 then 0
    else if ts[0].protocol == Progressive then 0
    else 1 + FirstProgressive(ts[1..])
  }

  /** There is no progressive transcoding exactly when the search runs off the end. */
  lemma NoProgressiveIff(ts: seq<Transcoding>)
    ensures FirstProgressive(ts) == |ts| <==> forall i :: 0 <= i < |ts| ==> ts[i].protocol != Progressive
  {
  }

  /** `preset.split('_')[0].upper()`: the codec name a preset starts with. */
  function CodecOf(preset: string): (r: string)
  {
    Text.Upper(Text.FirstSegment(preset, '_'))
  }

  /** How the host is told to fetch the audio. */
  datatype DownloadMode = Url | TempFilePath

  /** The root revision remuxes AAC through a temporary file and streams the rest. */
  function DownloadModeFor(codec: string): (d: DownloadMode)
    ensures d == TempFilePath <==> codec == "AAC"
  {
    if codec == "AAC" then TempFilePath else Url
  }

  /** The codec of a preset such as `aac_160k` is the upper-cased text before its first `_`. */
  lemma CodecOfPresetPrefix(preset: string, prefix: string, suffix: string)
    requires '_' !in prefix
    requires preset == prefix + "_" + suffix
    ensures CodecOf(preset) == Text.Upper(prefix)
  {
    Text.FirstSegmentOfConcat(prefix, '_', suffix);
  }
}

=== FILE: wrappers.dfy ===
/** Failure-carrying values shared by every module of the model. */
module Wrappers {

  /** A value that may be absent (Python's `None`). */
  datatype Option<+T> = None | Some(value: T)

  /** The outcome of a call that either returns a value or raises. */
  datatype Result<+T, +E> = Success(value: T) | Failure(error: E)
}
